=== FILE: README.md ===
# Portfolio page interaction logic, in Dafny

This project models the interactive core of a personal portfolio site and proves properties
of it. The site ships several vanilla scripts under `assets/js/`, a few React components
under `src/components/` and a PHP mail handler, `forms/contact.php`. The scripts repeat the
same ideas with drift: slide navigators, a section router, typewriter loops, theme and menu
toggles, category filters, a cursor trail, toasts and scroll-driven active links. Each
variant is modelled in the file that contains it, and no two variants are merged where they
behave differently.

The model is functional throughout. Page state is an immutable record. Every DOM event
(click, key, swipe, wheel, scroll, `hashchange`) and every `setTimeout` callback is an
explicit event value, and a pure step function handles each one. The DOM is reduced to what
the scripts read and write:

- the ids, categories and `href`s of elements;
- which elements carry a class;
- the `translateX` of a container;
- the URL fragment.

JavaScript's number rules are modelled where the scripts depend on them, in module `Js`:

- `parseInt` of a missing attribute is NaN;
- comparisons with NaN are false;
- `Math.max`/`Math.min` propagate NaN;
- `%` truncates and yields NaN for a zero divisor;
- `substring` clamps its arguments.

| file | module | models |
|---|---|---|
| `js.dfy` | `Js` | `Option`, integer-or-NaN numbers, `===`, `<`, `>=`, `+`, `*`, `%`, `Math.max/min/abs`, `substring` |
| `sequences.dfy` | `Sequences` | subsequences, counting active flags |
| `horizontal_navigation.dfy` | `HorizontalNavigation` | `HorizontalNavigation` of `assets/js/main_old.js` |
| `horizontal_slider.dfy` | `HorizontalSlider` | `HorizontalSlider` of `assets/js/main_old_backup.js` |
| `section_navigation.dfy` | `SectionNavigation` | `SectionNavigation` of `assets/js/main_reference.js` |
| `typewriter.dfy` | `Typewriter` | `TypingEffect.type` of `main.js` and `main_old.js`, `typeWriter` of `frosted-glass-animations.js` |
| `enhanced_typing.dfy` | `EnhancedTyping` | `EnhancedTypingEffect` of `assets/js/enhanced-animations.js` |
| `theme.dfy` | `Theme` | the theme toggles of `main.js`/`main_old.js`, `main_old_backup.js`, `main_reference.js` |
| `mobile_menu.dfy` | `MobileMenu` | `MobileMenu` of `main_old_backup.js`; the hamburger of `main.js`/`main_old.js` |
| `card_filters.dfy` | `CardFilters` | `ProjectFilter` of `main.js`, `main_old.js`, `main_old_backup.js`; `PortfolioFilter` of `main_reference.js` |
| `cursor_trail.dfy` | `CursorTrail` | `CursorTrail` of `enhanced-animations.js` |
| `contact_message.dfy` | `ContactMessage` | `ContactFormHandler.showMessage` of `enhanced-animations.js` |
| `scroll_spy.dfy` | `ScrollSpy` | `Navigation.setupActiveNavigation` of `main.js`; `initSmoothScrolling` of `frosted-glass-animations.js` |
| `portfolio.dfy` | `Portfolio` | `src/components/Portfolio.jsx` |
| `react_navigation.dfy` | `ReactNavigation` | `src/components/Navigation.jsx` |
| `contact_form.dfy` | `ContactForm` | `forms/contact.php` |

`TypingEffect.type` (`main.js` 428-451, `main_old.js` 450-473) and `typeWriter`
(`frosted-glass-animations.js` 145-168) run the same algorithm on different word lists, so
`Typewriter.Type` models all three. The word lists are separate constants.

Two settings are abstracted:

- **Timers:** a timer's delay is recorded but time itself is not modelled. When timers of
  equal delay are pending, they fire in the order they were set.
- **Oracles:** `filter_var(..., FILTER_VALIDATE_EMAIL)` and `mail()` are function
  parameters of `ContactForm.Handle`. So are the random colour of a trail point and
  `document.querySelector` lookups that depend on the markup.

## Model

| member | source | states |
|---|---|---|
| `HorizontalNavigation.ClampIndex` | assets/js/main_old.js:596-597 | the clamp lands in [0, 5], keeps in-range indices and sends low/high targets to the ends |
| `HorizontalNavigation.ActiveLinks` | assets/js/main_old.js:622-631 | a link is active iff its parsed `data-section` is `===` the current index (never for NaN) |
| `HorizontalNavigation.MarkSection` | assets/js/main_old.js:633-645 | no element found leaves the marks alone; otherwise only the slide whose position is the target stays marked, and a found target slide is marked |
| `HorizontalNavigation.GoToSection` | assets/js/main_old.js:593-620 | dropped while animating; an integer target moves to clamp(i, 0, 5), starts a transition iff that differs from the current section, translates by -100 per section, and keeps the invariant |
| `HorizontalNavigation.Step` | assets/js/main_old.js:516-591 | while animating every event but the timer is a no-op, only the 800 ms timer lowers the flag, and integer input preserves the invariant |
| `HorizontalNavigation.Init` | assets/js/main_old.js:500-514 | the navigator starts valid on section 0 with no transition |
| `HorizontalNavigation.EdgesDoNotWrap` | assets/js/main_old.js:530-546 | ArrowLeft at 0 and ArrowRight at 5 change nothing; Home and End reach 0 and 5 |
| `HorizontalNavigation.SwipeThresholdRule` | assets/js/main_old.js:578-591 | a swipe of at most 50 px does nothing; a longer leftward drag targets the next section and a rightward one the previous, clamped |
| `HorizontalNavigation.NonNumericClickEscapesClamp` | assets/js/main_old.js:518-523 | a link whose `data-section` does not parse moves the navigator to NaN with no link active and a NaN translation |
| `HorizontalNavigation.ExactlyOneActiveLink` | assets/js/main_old.js:622-631 | with links numbered 0..5, exactly the current section's link is active |
| `HorizontalNavigation.AcceptedCallMarksOnlyTarget` | assets/js/main_old.js:633-645 | after an accepted move whose lookup finds the target slide, exactly that slide carries `section-active` |
| `HorizontalSlider.UpdateActiveStates` | assets/js/main_old_backup.js:115-126 | slide k is active iff k is the current index; a link is active iff its `data-section` is |
| `HorizontalSlider.GoToSlideAsWritten` | assets/js/main_old_backup.js:86-103 | the written guard refuses negative and too-large integers but accepts NaN, which then becomes the current index and translation |
| `HorizontalSlider.GoToSlide` | assets/js/main_old_backup.js:86-103 | anything but an existing slide index is refused with no clamping; an accepted index becomes current with translation -100*i and a valid state; on integers it agrees with the code as written |
| `HorizontalSlider.NextSlide` | assets/js/main_old_backup.js:105-108 | through the written guard: from a valid state, moves to the following slide, wrapping from the last to the first, and stays valid; with no slides, or from NaN, the slider lands on NaN |
| `HorizontalSlider.PreviousSlide` | assets/js/main_old_backup.js:110-113 | through the written guard: from a valid state, moves to the preceding slide, wrapping from the first to the last, and stays valid; with no slides, or from NaN, the slider lands on NaN |
| `HorizontalSlider.NeighbourIndices` | assets/js/main_old_backup.js:106-111 | on a valid state the `%` of `nextSlide` and `previousSlide` is the successor and predecessor with wrap-around |
| `HorizontalSlider.Step` | assets/js/main_old_backup.js:39-84 | the handlers as written: clicks carrying integers and all keys keep the slider valid, while a click whose `data-section` does not parse moves it to NaN and out of the invariant |
| `HorizontalSlider.StepCorrected` | assets/js/main_old_backup.js:39-103 | with the corrected guard every event keeps the slider valid; it agrees with the written handlers on every event except a NaN click, which it ignores |
| `HorizontalSlider.Init` | assets/js/main_old_backup.js:15-37 | starts on slide 0 with no translation, valid whenever there is a slide |
| `HorizontalSlider.GoToSlideIdempotent` | assets/js/main_old_backup.js:89-102 | going to the same slide twice equals going once |
| `HorizontalSlider.PreviousUndoesNext` | assets/js/main_old_backup.js:105-113 | `previousSlide` after `nextSlide` restores the index |
| `HorizontalSlider.NextNIndex` | assets/js/main_old_backup.js:106-107 | k <= N calls of `nextSlide` advance the index by k, wrapping once, and stay valid |
| `HorizontalSlider.NextCycles` | assets/js/main_old_backup.js:105-108 | N calls of `nextSlide` return to the starting slide |
| `HorizontalSlider.NaNPassesGuard` | assets/js/main_old_backup.js:87-89 | as written, a NaN index is accepted and leaves no slide and no link active |
| `HorizontalSlider.NaNIsSticky` | assets/js/main_old_backup.js:105-107 | as written, once the index is NaN, `nextSlide` (and so ArrowRight) yields NaN again |
| `HorizontalSlider.HomeAndEndRecoverFromNaN` | assets/js/main_old_backup.js:49-70 | from a NaN index ArrowLeft and ArrowRight stay on NaN, while Home and End jump to the first and last slide and make the slider valid again |
| `HorizontalSlider.NoSlidesGivesNaN` | assets/js/main_old_backup.js:105-107 | as written, with no slides `nextSlide` computes `1 % 0` and the guard accepts the resulting NaN |
| `SectionNavigation.ActiveLinks` | assets/js/main_reference.js:161-169 | a link is active iff its `href` equals the argument |
| `SectionNavigation.ShowHome` | assets/js/main_reference.js:118-134 | no section stays shown, the header loses `header-top`, only `#header` links are active and the fragment is cleared; the mobile menu is untouched |
| `SectionNavigation.ShowSection` | assets/js/main_reference.js:136-159 | an id with no element changes nothing; otherwise the target is the only shown section, the header gets `header-top`, only `#id` links are active and the fragment becomes `#id` |
| `SectionNavigation.ToggleMobileMenu` | assets/js/main_reference.js:171-175 | flips `navbar-mobile` when there is a navbar and touches nothing else |
| `SectionNavigation.CloseMobileMenu` | assets/js/main_reference.js:177-181 | removes `navbar-mobile` when there is a navbar and touches nothing else |
| `SectionNavigation.OnLinkClick` | assets/js/main_reference.js:68-82 | a link without `href` throws and changes nothing; otherwise the mobile menu ends closed; `#header` clears the fragment, hides every section and activates only `#header` links; another `href` naming an element makes its id the fragment, shows it alone and activates only its links; one naming nothing changes only the menu |
| `SectionNavigation.OnHashChange` | assets/js/main_reference.js:92-99 | the menu is untouched; an empty hash hides every section and clears the fragment; a hash naming an element shows it alone and becomes the fragment; a hash naming nothing is already in the URL, so it becomes the fragment while the shown sections, the header and the links stay as they were |
| `SectionNavigation.Step` | assets/js/main_reference.js:66-116 | every event except a `hashchange` to a fragment naming no element keeps the view consistent with the URL fragment |
| `SectionNavigation.UnknownHashLeavesStaleView` | assets/js/main_reference.js:92-99 | a `hashchange` to a fragment naming no element (`showSection` returns early, line 139) moves the URL fragment but keeps showing the previous section, so the view no longer matches the URL |
| `SectionNavigation.Init` | assets/js/main_reference.js:60-64 | `updateActiveNav()` without an argument leaves no link active |
| `SectionNavigation.ShowsAreConsistent` | assets/js/main_reference.js:118-159 | both show functions leave a view consistent with the fragment they set |
| `SectionNavigation.HashChangeReplaysFragment` | assets/js/main_reference.js:92-99 | replaying the current fragment through `hashchange` changes nothing |
| `SectionNavigation.HeaderLinkAndHeaderHashDiffer` | assets/js/main_reference.js:73-99 | clicking `#header` goes home, but a `#header` hash shows the header as a section with `header-top` |
| `SectionNavigation.MobileMenuLaws` | assets/js/main_reference.js:171-181 | closing is idempotent and toggling is an involution |
| `Typewriter.Type` | assets/js/main.js:428-451 | delays 100/50 while typing/deleting, 2000 when a text completes and 500 when one is erased, with the index advancing modulo the count; the display stays the prefix of length `charIndex` |
| `Typewriter.FirstCallEstablishesValid` | assets/js/main.js:422-426 | the first call replaces the markup's text with the first character of the first text |
| `Typewriter.TypingPhase` | assets/js/main.js:434-443 | from any typing state the rest of the text is typed one character per call, then deleting starts with the full text shown |
| `Typewriter.DeletingPhase` | assets/js/main.js:431-447 | from any deleting state the text is erased one character per call, then the next text starts from an empty display |
| `Typewriter.RunAdditive` | assets/js/main.js:450 | running m calls and then n calls equals running m + n calls |
| `Typewriter.FullCycle` | assets/js/frosted-glass-animations.js:145-168 | 2·length calls take the loop from the start of one word to the start of the next, wrapping |
| `Typewriter.EmptyTextTypesForever` | assets/js/main_old.js:450-473 | on an empty text the loop never leaves the typing phase |
| `Typewriter.ShippedListsAreNonEmpty` | assets/js/frosted-glass-animations.js:140 | the shipped lists (4 texts, 5 words) are non-empty, as the phases require |
| `EnhancedTyping.Merge` | assets/js/enhanced-animations.js:11-18 | each option is the supplied value when given and the default (100, 50, 2000, true, true) otherwise |
| `EnhancedTyping.ShippedConfiguration` | assets/js/enhanced-animations.js:467-478 | the call site yields speeds 80/40/2500 with loop and cursor on, over six non-empty words |
| `EnhancedTyping.Type` | assets/js/enhanced-animations.js:34-73 | waiting only re-arms the wait; typing shows one more character with a jittered delay; a complete word enters waiting; deleting removes one character; an erased word advances the index modulo the count after 500 ms |
| `EnhancedTyping.Fire` | assets/js/enhanced-animations.js:37-58 | after any callback the machine is waiting iff a wait timer was scheduled; the word-complete timer starts deleting (one character off, `deleteSpeed` delay), or moves on from an empty word; a resumed wait on a complete word re-arms the word-complete timer; a plain retype during a wait changes nothing |
| `EnhancedTyping.Start` | assets/js/enhanced-animations.js:19-32 | the constructor starts on the first word |
| `EnhancedTyping.Advance` | assets/js/enhanced-animations.js:37-71 | firing the pending callback keeps the invariant: the display is the prefix of length `charIndex`, waiting only on a complete word, and the wait timer pending exactly while waiting |
| `EnhancedTyping.StartIsValid` | assets/js/enhanced-animations.js:27-32 | the first call establishes the invariant when the first word is non-empty |
| `EnhancedTyping.TypingPhase` | assets/js/enhanced-animations.js:45-50 | typing shows one more character per callback up to the full word |
| `EnhancedTyping.DeletingPhase` | assets/js/enhanced-animations.js:60-71 | deleting removes one character per callback down to zero, then moves to the next word, wrapping |
| `EnhancedTyping.FullCycle` | assets/js/enhanced-animations.js:34-73 | 2·length + 2 callbacks go from the start of one word to the start of the next, even for an empty word |
| `CursorTrail.AddTrailPoint` | assets/js/enhanced-animations.js:206-217 | the new point is last with life 20; below the cap nothing is dropped, at the cap exactly the oldest point is; the length never exceeds 20; the invariant is kept |
| `CursorTrail.Animate` | assets/js/enhanced-animations.js:219-242 | every survivor has life left, the survivors are exactly the decremented points whose life stays positive, in their original order, and with no point at one life the frame only decrements |
| `CursorTrail.AnimateCounts` | assets/js/enhanced-animations.js:222-239 | each decremented point with life left occurs in the result exactly as often as in the trail, and no other point occurs, so duplicates are kept |
| `CursorTrail.AnimateKeepsValid` | assets/js/enhanced-animations.js:222-239 | a frame keeps at most 20 points with lives in [1, 20] |
| `CursorTrail.Step` | assets/js/enhanced-animations.js:195-197 | mouse moves and frames keep the invariant |
| `CursorTrail.AnimateLowersLives` | assets/js/enhanced-animations.js:222-223 | a frame lowers every remaining life bound by one, keeps survivors at one life or more, and empties a trail whose points have one life left |
| `CursorTrail.TrailDrains` | assets/js/enhanced-animations.js:219-242 | for n >= 1, if every life is in [1, n] then n quiet frames empty the trail |
| `CursorTrail.QuietTrailEmpties` | assets/js/enhanced-animations.js:206-239 | any valid trail is empty after 20 quiet frames |
| `CursorTrail.OldestLeavesFirst` | assets/js/enhanced-animations.js:214-216 | adding to a full trail keeps the newest 19 points in order and appends the new one: exactly one copy of the oldest point is lost |
| `ContactMessage.Without` | assets/js/enhanced-animations.js:347-350 | removing an element by identity keeps every other toast |
| `ContactMessage.ShowMessage` | assets/js/enhanced-animations.js:345-372 | the first existing toast is removed and the new one appended; from at most one toast, the new one is the only toast |
| `ContactMessage.Expire` | assets/js/enhanced-animations.js:377-381 | the removal timer removes its own toast and no other |
| `ContactMessage.Step` | assets/js/enhanced-animations.js:345-382 | at most one toast is ever on the page, and after a show it is the new one |
| `ContactMessage.TimersRemoveOnlyTheirOwnToast` | assets/js/enhanced-animations.js:377-381 | a toast's timer empties the page; a replaced toast's stale timer leaves the new toast alone |
| `CardFilters.SettledVisibility` | assets/js/main_old_backup.js:199 | `all` shows every card; a category shows exactly the cards with that `data-category`; a button without `data-filter` shows exactly the cards without one |
| `CardFilters.SetActiveFilter` | assets/js/main.js:207-210 | exactly one button, the clicked one, is active |
| `CardFilters.FilterPortfolio` | assets/js/main_reference.js:302-318 | `*` shows every item; any other filter shows exactly the items with the class after its first character; a missing `data-filter` throws when there are items |
| `CardFilters.PortfolioClick` | assets/js/main_reference.js:292-299 | a throwing filter changes nothing; otherwise the filter result is shown and exactly the clicked button carries `filter-active` |
| `CardFilters.RulesAgree` | assets/js/main_reference.js:304 | the reference rule with `*` and `.c` decides like the `all`/category rule under the markup's class convention |
| `CardFilters.FilterNow` | assets/js/main.js:191-205 | the `hidden` class follows the rule at once; shown cards are displayed at once; every hidden card gets a pending display timer |
| `CardFilters.HideTimerAsWritten` | assets/js/main.js:200-202 | the written timer stops displaying its card whatever happened since |
| `CardFilters.HideTimer` | assets/js/main.js:198-202 | the corrected timer touches only a card that is still hidden and keeps the grid consistent |
| `CardFilters.FilterNowKeepsValid` | assets/js/main.js:192-204 | a click keeps every visible card displayed and every displayed hidden card with a pending timer |
| `CardFilters.FireAll` | assets/js/main.js:198-202 | once all corrected timers fire, a card is displayed iff it is not hidden |
| `CardFilters.LastClickWins` | assets/js/main.js:191-205 | after the timers, exactly the cards the last click's filter shows are displayed |
| `CardFilters.StaleHideTimerHidesShownCard` | assets/js/main.js:195-202 | as written, `web` then `all` within 300 ms leaves a `mobile` card not hidden but not displayed |
| `Portfolio.WithCategory` | src/components/Portfolio.jsx:88 | keeps only projects of the category, every such project, in their original order |
| `Portfolio.WithCategoryCounts` | src/components/Portfolio.jsx:88 | a matching project occurs in the result exactly as often as in the list, and no other project occurs, so with the order the result is pinned |
| `Portfolio.WithCategoryIdempotent` | src/components/Portfolio.jsx:88 | filtering the filtered list again by the same category changes nothing |
| `Portfolio.FilteredProjects` | src/components/Portfolio.jsx:86-88 | `all` yields the list unchanged; any other filter yields, in order, each project of that category exactly as often as it occurs in the list and nothing else |
| `Portfolio.ShippedFilters` | src/components/Portfolio.jsx:14-88 | on the shipped data the `other` filter yields nothing and `web` yields projects 1, 4, 6 in order |
| `Portfolio.TechBadges` | src/components/Portfolio.jsx:164-177 | the first min(3, n) technologies are shown in order, a `+k` badge appears iff n > 3, and shown + k = n |
| `Portfolio.RenderCard` | src/components/Portfolio.jsx:145-151 | the Featured badge is rendered iff the project is featured |
| `Portfolio.ShippedBadges` | src/components/Portfolio.jsx:17-84 | only project 1 shows `+1`; the featured badge is on projects 1, 3 and 6 |
| `Portfolio.Step` | src/components/Portfolio.jsx:98-331 | a card click opens the modal on that project; the backdrop and close button close it; clicks that stop propagation change nothing; a category click sets the filter |
| `Portfolio.ActiveButtons` | src/components/Portfolio.jsx:298-312 | a category button is highlighted iff its id is the active filter |
| `Portfolio.ExactlyOneActiveButton` | src/components/Portfolio.jsx:301-305 | after clicking a listed category, and initially, exactly one button is highlighted |
| `ScrollSpy.CurrentSection` | assets/js/main.js:52-63 | the result is the id of the last section whose band [top-150, top-150+height) contains the scroll position, or `''` when none does |
| `ScrollSpy.LinkStates` | assets/js/main.js:65-70 | a link is active iff its `href` is `#` + the current id |
| `ScrollSpy.AtMostOneActiveLink` | assets/js/main.js:65-70 | with distinct `href`s exactly the link to the current section is active |
| `ScrollSpy.BareHashLightsUpBetweenSections` | assets/js/main.js:53-68 | between sections the current id is `''`, so exactly the links whose `href` is `#` are active |
| `ScrollSpy.FrostedLinkClick` | assets/js/frosted-glass-animations.js:263-275 | a click whose target exists leaves exactly that link active; a missing target changes nothing |
| `ReactNavigation.FirstStraddling` | src/components/Navigation.jsx:27-34 | finds the first existing section with top <= 100 <= bottom, or none when there is no such section |
| `ReactNavigation.HandleScroll` | src/components/Navigation.jsx:20-39 | the first straddling nav item becomes active; with none the view is unchanged |
| `ReactNavigation.ScrollToSection` | src/components/Navigation.jsx:45-51 | the menu closes whether or not the element exists, and the active item is kept |
| `ReactNavigation.ToggleMenu` | src/components/Navigation.jsx:98 | the menu button flips `isOpen` |
| `ReactNavigation.ToggleMenuLaws` | src/components/Navigation.jsx:45-51 | two presses of the menu button restore the view; a nav-item click right after opening the menu closes it and keeps the active item |
| `ReactNavigation.Step` | src/components/Navigation.jsx:19-51 | the active section stays one of the six nav ids |
| `ReactNavigation.ActiveStyling` | src/components/Navigation.jsx:77-89 | an item is styled active iff its id is the active section |
| `ReactNavigation.ExactlyOneActiveItem` | src/components/Navigation.jsx:7-17 | the initial `header` is a nav id, and in every valid view exactly one item is styled active |
| `ContactForm.TrimStart` | forms/contact.php:14-17 | drops only trim characters from the front, up to the first other character |
| `ContactForm.TrimEnd` | forms/contact.php:14-17 | drops only trim characters from the back, up to the last other character |
| `ContactForm.Trim` | forms/contact.php:14-17 | neither end of the result is a trim character |
| `ContactForm.TrimShape` | forms/contact.php:14-17 | the trimmed field is the part of the input between leading and trailing runs of trim characters |
| `ContactForm.TrimLaws` | forms/contact.php:14-17 | trimming is idempotent, and an all-whitespace field trims to nothing |
| `ContactForm.Field` | forms/contact.php:14-17 | an absent field is `''`; a present one is trimmed |
| `ContactForm.Handle` | forms/contact.php:7-62 | non-POST gets 405 and nothing else; any empty field gets 'All fields are required' before the address oracle is asked; a bad address gets 'Invalid email address'; the mail has the recipient and the prefixed subject; success iff `mail()` accepts |
| `ContactForm.OnlyTrimmedFieldsMatter` | forms/contact.php:20-28 | two requests with the same method and trimmed fields get the same outcome |
| `ContactForm.PaddedZeroIsEmpty` | forms/contact.php:20-23 | a field `" 0 "` trims to `"0"`, which `empty()` counts as missing |
| `ContactForm.BlankFieldIsEmpty` | forms/contact.php:17-20 | a whitespace-only field trims to the empty string |
| `ContactForm.PaddingIsIgnored` | forms/contact.php:14-16 | surrounding spaces, tabs and newlines do not change a field |
| `Theme.IconFor` | assets/js/main.js:117-126 | the icon is the moon iff the theme is `light` |
| `Theme.InitialTheme` | assets/js/main.js:101 | a missing or empty stored value gives `dark`, any other is used as is |
| `Theme.Toggled` | assets/js/main.js:132-135 | the result is always `dark` or `light`, and `light` exactly when the input was `dark` |
| `Theme.ToggleTwice` | assets/js/main_reference.js:42-45 | two toggles restore `dark` or `light`; any other stored theme toggles to `dark` |
| `Theme.SetClassTheme` | assets/js/main.js:116-130 | the theme is stored, `light-theme` is present iff it is `light`, and the icon follows when there is a button |
| `Theme.ToggleClassTheme` | assets/js/main_old.js:132-151 | `dark` becomes `light` and anything else becomes `dark`; `light-theme` is present iff the new theme is `light`; with a button the icon is the one for the new theme, without one it is untouched |
| `Theme.InitClassTheme` | assets/js/main.js:97-107 | the constructor applies the stored theme, or `dark` when none is stored; `light-theme` iff `light` was stored; with a button the icon is the one for that theme, without one the markup's icon stays |
| `Theme.ClassThemeToggleTwice` | assets/js/main.js:116-135 | two toggles from a consistent dark or light state give back the same rendered state |
| `Theme.SetDeferredTheme` | assets/js/main_old_backup.js:155-169 | the class changes at once while the icon keeps its value and a 150 ms icon change is queued |
| `Theme.ToggleDeferredTheme` | assets/js/main_old_backup.js:150-153 | `dark` becomes `light` and anything else becomes `dark`; `light-theme` follows the new theme at once, while the shown icon stays and the new theme's icon is queued behind any pending ones |
| `Theme.IconTimerFired` | assets/js/main_old_backup.js:163-166 | the oldest queued icon is shown; theme and class are untouched |
| `Theme.FireAll` | assets/js/main_old_backup.js:160-166 | once every queued icon timer fires, the icon matches the theme |
| `Theme.DeferredThemeSettles` | assets/js/main_old_backup.js:150-169 | every operation keeps the eventual icon in step with the theme |
| `Theme.IconLagsToggle` | assets/js/main_old_backup.js:157-164 | right after a toggle to light the sun is still shown, and the moon appears once the timer fires |
| `Theme.SetAttributeTheme` | assets/js/main_reference.js:26-40 | `data-theme` and the current theme are the argument; with a button the icon is the one for the theme, without one it is untouched |
| `Theme.ToggleAttributeTheme` | assets/js/main_reference.js:42-45 | `dark` becomes `light` and anything else becomes `dark`; `data-theme` follows, and with a button so does the icon |
| `MobileMenu.Toggle` | assets/js/main_old_backup.js:264-268 | the flag flips and both `active` classes follow it |
| `MobileMenu.Close` | assets/js/main_old_backup.js:270-274 | the menu is closed with both classes removed |
| `MobileMenu.OnLinkClick` | assets/js/main_old_backup.js:254-262 | a link click closes an open menu and leaves a closed one untouched |
| `MobileMenu.Init` | assets/js/main_old_backup.js:233-241 | the menu starts closed |
| `MobileMenu.ToggleLaws` | assets/js/main_old_backup.js:264-274 | toggling twice is the identity on a synced menu, a toggle re-syncs the classes, and closing is idempotent |
| `MobileMenu.TogglePair` | assets/js/main.js:77-78 | each `active` class flips on its own |
| `MobileMenu.ToggleN` | assets/js/main.js:74-81 | without a shared flag, classes that start out of step stay out of step, and n clicks flip each class n times |

## Left out

- Particles, floating orbs, tilt, parallax, hue rotation, scroll progress, counters, the
  loading screen and the cursor trail's drawing, opacity and size are left out. They are
  floating-point or random rendering with no state worth proving.
- Real time is left out. Timers are events, and `Math.random()` jitter on typing delays is
  recorded only as a flag. `requestAnimationFrame` scheduling is reduced to one `Frame`
  event per frame.
- Browser I/O is left out: `localStorage` writes, `history.replaceState`,
  `scrollIntoView`/`scrollTo`, the `fetch` submission clients and inline styles. The stored
  theme is a parameter, and the URL fragment is a state field.
- The staggered show and hide timers of `filterProjects` in `main_old.js` and
  `main_old_backup.js`, and of `filterPortfolio`, are modelled by their settled result
  (`CardFilters.SettledVisibility`, `CardFilters.FilterPortfolio`). Their own uncancelled
  timers can race the same way as in `main.js` (see Findings), but only the `main.js`
  variant is modelled with timers.
- The `loop` and `cursor` options of `EnhancedTypingEffect` are merged but never change
  the loop. The code never reads `loop`, and `cursor` only adds a CSS class.
- `ContactForm.Handle` leaves out the mail body, the extra headers, `$_SERVER['HTTP_HOST']`,
  the date and the client address. It also leaves out array-valued form fields, which make
  `trim` throw. The handler's `mail()` oracle sees the recipient, subject, name, reply-to
  address and message.
- `Typewriter.Type` assumes non-empty texts for its invariant. `Typewriter.EmptyTextTypesForever`
  shows what happens otherwise. `EnhancedTyping` needs no such assumption.
- HorizontalSlider.GoToSlideAsWritten: always records the translation. The code writes the
  transform only when `#slides-wrapper` exists and otherwise logs an error; the page is
  assumed to have the wrapper, because that branch changes only console output.
- HorizontalNavigation.GoToSection: assumes the page has `#horizontal-container`. Without it,
  `main_old.js` throws at line 554 after the click and key handlers are registered, so
  `updateActiveNav` (line 513) never runs. The first accepted `goToSection` then sets
  `isAnimating` (line 601) and throws at line 608 before the 800 ms timer (line 614) is set,
  so every later call is dropped. The model always has the container.
- Theme.SetDeferredTheme: assumes the page has `#theme-btn` with an `<i>` inside. Without
  them, `main_old_backup.js` throws at lines 160-161 (from the constructor's `setTheme`) or
  at line 145; the model does not represent that exception.
- Theme.SetAttributeTheme: assumes a `#theme-btn` contains an `<i>`. Without it,
  `main_reference.js` throws at line 33 or 35, after `data-theme` is set (line 27) but
  before `currentTheme` is (line 39). From the constructor, `bindEvents` (line 15) then
  never runs. The model does not represent that exception.
- `HorizontalNavigation.Step` takes the swipe coordinates and wheel deltas as integers, while
  `clientX` (`main_old.js` lines 555 and 559) and `deltaX`/`deltaY` (line 567) are fractional.
  A drag of, say, 50.5 pixels moves a section in the browser and has no integer counterpart.
- The toast's background gradient in `enhanced-animations.js` (green for `'success'`, red
  otherwise) is presentation; the model keeps only the message type.
- `ReactNavigation.HandleScroll` receives the rectangles of the six sections. `null`
  (`Option.None`) stands for a section with no element. Geometry is integer pixels, while
  browsers report fractional ones.
- `ScrollSpy.CurrentSection` takes `offsetTop`, `clientHeight` and `pageYOffset` as
  integers.
- `main.js` `showMessage` and the other `ContactFormHandler` methods besides `showMessage`
  are not part of this model, because they are presentation or network code.
- The outside-click handler of `main_reference.js` dereferences the navbar and the toggle
  without a null check, so on a page missing either it throws. `SectionNavigation.Step`
  does not model that exception: it closes the menu when there is a navbar and otherwise
  changes nothing.

## Findings

| source | as written | input that shows it | evidently intended | confidence | as-written member | corrected member |
|---|---|---|---|---|---|---|
| assets/js/main_old_backup.js:87 | `if (index < 0 \|\| index >= this.totalSlides) return;` is false for NaN, so NaN becomes `currentSlide` | a `.nav-link` without `data-section` (`parseInt(null)` is NaN), or `nextSlide` on a page with no slides (`1 % 0`) | anything but an existing slide index is refused | medium, depends on the markup; not executed | `HorizontalSlider.GoToSlideAsWritten` (`HorizontalSlider.NaNPassesGuard`, `HorizontalSlider.NaNIsSticky`, `HorizontalSlider.NoSlidesGivesNaN`, `HorizontalSlider.Step`) | `HorizontalSlider.GoToSlide` (`HorizontalSlider.StepCorrected`) |
| assets/js/main.js:200-202 | the 300 ms `display = 'none'` timer is never cancelled and does not recheck the card | one `mobile` card; click `web`, then `all` within 300 ms: the card loses `hidden` but the stale timer then hides it | the last click decides what is displayed | high for quick double clicks; not executed | `CardFilters.HideTimerAsWritten` (`CardFilters.StaleHideTimerHidesShownCard`) | `CardFilters.HideTimer` (`CardFilters.LastClickWins`) |

=== FILE: card_filters.dfy ===
/** The category filters of the vanilla scripts.
    - `ProjectFilter` of assets/js/main.js, assets/js/main_old.js and
      assets/js/main_old_backup.js shows a `.project-card` iff the clicked button's
      `data-filter` is `'all'` or equals the card's `data-category`.
    - `PortfolioFilter` of assets/js/main_reference.js shows an item iff the filter is `'*'`
      or the item has the class named by the filter without its first character.
    - Every variant then marks exactly the clicked button active.
    Attributes are `Option`s: `getAttribute` of a missing attribute is `null`. */
module CardFilters {
  import opened Js
  import opened Sequences

  /** `filter === 'all' || category === filter`. */
  predicate Shows(filter: Option<string>, category: Option<string>)
  {
    filter == Some("all") || category == filter
  }

  /** Which cards end up shown once every animation timer has fired (main_old.js and
      main_old_backup.js apply the rule from staggered timers). */
  function SettledVisibility(filter: Option<string>, categories: seq<Option<string>>): (r: seq<bool>)
    ensures |r| == |categories|
    ensures filter == Some("all") ==> forall k :: 0 <= k < |r| ==> r[k]
    ensures filter.Some? && filter.value != "all" ==>
      forall k :: 0 <= k < |r| ==> (r[k] <==> categories[k] == filter)
    ensures filter.None? ==> forall k :: 0 <= k < |r| ==> (r[k] <==> categories[k].None?)
  {
    seq(|categories|, k requires 0 <= k < |categories| => Shows(filter, categories[k]))
  }

  /** `setActiveFilter` / `updateActiveFilter`: every button loses the active class, then the
      clicked one gets it back. */
  function SetActiveFilter(count: nat, clicked: nat): (r: seq<bool>)
    requires clicked < count
    ensures |r| == count && OnlyAt(r, clicked)
    ensures CountTrue(r) == 1
  {
    var r := seq(count, k => k == clicked);
    OnlyAtCountsOne(r, clicked);
    r
  }

  // ----- main_reference.js -----

  /** `classList.contains(token)`: class lists hold no empty token. */
  predicate HasClass(classes: set<string>, token: string)
  {
    token != "" && token in classes
  }

  /** `filterPortfolio(filter)`. `None` is the TypeError thrown by `filter.substring(1)` when
      the button has no `data-filter` and there is at least one item to test. */
  function FilterPortfolio(filter: Option<string>, items: seq<set<string>>): (r: Option<seq<bool>>)
    ensures r.None? <==> filter.None? && |items| > 0
    ensures r.Some? ==> |r.value| == |items|
    ensures filter == Some("*") ==> r.Some? && forall k :: 0 <= k < |items| ==> r.value[k]
    ensures filter.Some? && filter.value != "*" ==>
      r.Some? && forall k :: 0 <= k < |items| ==> (r.value[k] <==> HasClass(items[k], DropFirst(filter.value)))
  {
    if filter.None? then
      if |items| > 0 then None else Some([])
    else
      Some(seq(|items|, k requires 0 <= k < |items| =>
        filter.value == "*" || HasClass(items[k], DropFirst(filter.value))))
  }

  /** Shown items and the `filter-active` flag of each button. */
  datatype PortfolioView = PortfolioView(shown: seq<bool>, active: seq<bool>)

  /** A click on button `b` whose `data-filter` is `filter`: filter, then mark the button;
      when filtering throws, the handler stops before either happens. */
  function PortfolioClick(v: PortfolioView, items: seq<set<string>>, buttons: nat, b: nat, filter: Option<string>): (r: PortfolioView)
    requires b < buttons
    ensures FilterPortfolio(filter, items).None? ==> r == v
    ensures FilterPortfolio(filter, items).Some? ==>
      r.shown == FilterPortfolio(filter, items).value && OnlyAt(r.active, b) && CountTrue(r.active) == 1
  {
    match FilterPortfolio(filter, items)
    case None => v
    case Some(shown) => PortfolioView(shown, SetActiveFilter(buttons, b))
  }

  /** The two rules agree under the markup convention the pages use: `'all'` corresponds to
      `'*'`, and a category `c` to the filter `'.c'` on an item whose classes name `c`. */
  lemma RulesAgree(category: string, filterCategory: string, classes: set<string>)
    requires category != "" && category in classes
    requires forall c :: c in classes && c != category ==> c != filterCategory
    ensures Shows(Some("all"), Some(category)) == FilterPortfolio(Some("*"), [classes]).value[0]
    ensures filterCategory != "all" && filterCategory != "" ==>
      Shows(Some(filterCategory), Some(category)) == FilterPortfolio(Some("." + filterCategory), [classes]).value[0]
  {
    assert DropFirst("." + filterCategory) == filterCategory;
  }

  // ----- main.js, with the display timers -----

  /** A card of main.js: its category, whether it carries `hidden`, and whether its
      `display` is not `none`. */
  datatype Card = Card(category: Option<string>, hidden: bool, displayed: bool)

  /** The cards, and the indices of the cards whose 300 ms `display = 'none'` timer is still
      pending, oldest first (timers of equal delay fire in the order they were set). */
  datatype Grid = Grid(cards: seq<Card>, pending: seq<nat>)

  /** The indices in [from, |cards|) of the cards the filter hides, in order. */
  function HiddenIndices(filter: Option<string>, cards: seq<Card>, from: nat): (r: seq<nat>)
    ensures forall j :: j in r <==> from <= j < |cards| && !Shows(filter, cards[j].category)
    ensures filter == Some("all") ==> r == []
    decreases |cards| - from
  {
    if from >= |cards| then []
    else if Shows(filter, cards[from].category) then HiddenIndices(filter, cards, from + 1)
    else [from] + HiddenIndices(filter, cards, from + 1)
  }

  /** main.js `filterProjects`: a shown card loses `hidden` and is displayed at once; a
      hidden card gets `hidden` at once and a timer to stop displaying it. */
  function FilterNow(g: Grid, filter: Option<string>): (r: Grid)
    ensures |r.cards| == |g.cards|
    ensures forall k :: 0 <= k < |g.cards| ==>
      && r.cards[k].category == g.cards[k].category
      && (r.cards[k].hidden <==> !Shows(filter, g.cards[k].category))
      && (r.cards[k].displayed <==> Shows(filter, g.cards[k].category) || g.cards[k].displayed)
    ensures forall j :: j in r.pending <==> j in g.pending || (0 <= j < |g.cards| && !Shows(filter, g.cards[j].category))
    ensures filter == Some("all") ==> r.pending == g.pending
  {
    var cards := seq(|g.cards|, k requires 0 <= k < |g.cards| =>
      var c := g.cards[k];
      if Shows(filter, c.category) then c.(hidden := false, displayed := true) else c.(hidden := true));
    Grid(cards, g.pending + HiddenIndices(filter, g.cards, 0))
  }

  /** The oldest display timer fires, as written: the card stops being displayed whatever
      has happened to it since the timer was set. */
  function HideTimerAsWritten(g: Grid): (r: Grid)
    ensures |r.cards| == |g.cards|
    ensures |g.pending| > 0 && g.pending[0] < |g.cards| ==> !r.cards[g.pending[0]].displayed
  {
    if |g.pending| == 0 then g
    else
      var k := g.pending[0];
      var cards := if k < |g.cards| then g.cards[k := g.cards[k].(displayed := false)] else g.cards;
      Grid(cards, g.pending[1..])
  }

  /** The oldest display timer fires, corrected: it stops displaying the card only if the
      card is still `hidden`, so a later click that showed the card again wins. */
  function HideTimer(g: Grid): (r: Grid)
    ensures |r.cards| == |g.cards|
    ensures |g.pending| > 0 ==> r.pending == g.pending[1..]
    ensures forall k :: 0 <= k < |g.cards| ==> r.cards[k].hidden == g.cards[k].hidden
    ensures forall k :: 0 <= k < |g.cards| && !g.cards[k].hidden ==> r.cards[k] == g.cards[k]
    ensures Valid(g) ==> Valid(r)
  {
    if |g.pending| == 0 then g
    else
      var k := g.pending[0];
      var cards := if k < |g.cards| && g.cards[k].hidden then g.cards[k := g.cards[k].(displayed := false)] else g.cards;
      Grid(cards, g.pending[1..])
  }

  /** Every card without `hidden` is displayed, and every `hidden` card that is still
      displayed has a timer pending. */
  ghost predicate Valid(g: Grid)
  {
    forall k :: 0 <= k < |g.cards| ==>
      (!g.cards[k].hidden ==> g.cards[k].displayed)
      && (g.cards[k].hidden && g.cards[k].displayed ==> k in g.pending)
  }

  /** A click keeps the grid consistent. */
  lemma FilterNowKeepsValid(g: Grid, filter: Option<string>)
    requires Valid(g)
    ensures Valid(FilterNow(g, filter))
  {
  }

  /** Fire every pending display timer (corrected). */
  function FireAll(g: Grid): (r: Grid)
    ensures |r.cards| == |g.cards| && r.pending == []
    ensures forall k :: 0 <= k < |g.cards| ==> r.cards[k].hidden == g.cards[k].hidden
    ensures Valid(g) ==> forall k :: 0 <= k < |r.cards| ==> (r.cards[k].displayed <==> !r.cards[k].hidden)
    decreases |g.pending|
  {
    if |g.pending| == 0 then g else FireAll(HideTimer(g))
  }

  /** Once the timers have fired, the displayed cards are exactly the ones the last click's
      filter shows, as in the settled rule of the other variants. */
  lemma LastClickWins(g: Grid, filter: Option<string>)
    requires Valid(g)
    ensures var r := FireAll(FilterNow(g, filter));
      var expected := SettledVisibility(filter, seq(|g.cards|, k requires 0 <= k < |g.cards| => g.cards[k].category));
      |r.cards| == |expected| && forall k :: 0 <= k < |r.cards| ==> r.cards[k].displayed == expected[k]
  {
    FilterNowKeepsValid(g, filter);
  }

  /** As written, a timer from an earlier click can hide a card the latest click shows: one
      `mobile` card, a click on `web` and then, within 300 ms, a click on `all`. */
  lemma StaleHideTimerHidesShownCard()
    ensures var g0 := Grid([Card(Some("mobile"), false, true)], []);
      var g1 := FilterNow(FilterNow(g0, Some("web")), Some("all"));
      var g2 := HideTimerAsWritten(g1);
      Valid(g1) && !g2.cards[0].hidden && !g2.cards[0].displayed && !Valid(g2)
  {
    var g0 := Grid([Card(Some("mobile"), false, true)], []);
    var gw := FilterNow(g0, Some("web"));
    assert gw.pending == [0];
    var g1 := FilterNow(gw, Some("all"));
    assert g1.pending == [0];
  }
}

=== FILE: contact_form.dfy ===
/** The request handler of forms/contact.php: reject anything but POST, trim the four fields,
    require them all, validate the address, then hand the message to `mail()`. The address
    check (`filter_var` with `FILTER_VALIDATE_EMAIL`) and `mail()` are oracles passed in as
    functions; the outcome records whether, and with what, each oracle was consulted. */
module ContactForm {
  import opened Js

  /** The characters PHP's `trim` strips by default: space, tab, line feed, carriage return,
      NUL and vertical tab. */
  predicate IsTrimChar(c: char)
  {
    c == ' ' || c == '\t' || c == '\n' || c == '\r' || c == '\U{0000}' || c == '\U{000B}'
  }

  /** `ltrim`: drop trim characters from the front. */
  function TrimStart(s: string): (r: string)
    ensures |r| <= |s| && r == s[|s| - |r|..]
    ensures forall k :: 0 <= k < |s| - |r| ==> IsTrimChar(s[k])
    ensures |r| > 0 ==> !IsTrimChar(r[0])
  {
    if |s| > 0 && IsTrimChar(s[0]) then TrimStart(s[1..]) else s
  }

  /** `rtrim`: drop trim characters from the back. */
  function TrimEnd(s: string): (r: string)
    ensures |r| <= |s| && r == s[..|r|]
    ensures forall k :: |r| <= k < |s| ==> IsTrimChar(s[k])
    ensures |r| > 0 ==> !IsTrimChar(r[|r| - 1])
  {
    if |s| > 0 && IsTrimChar(s[|s| - 1]) then TrimEnd(s[..|s| - 1]) else s
  }

  /** `trim`: neither end of the result is a trim character. */
  function Trim(s: string): (r: string)
    ensures |r| <= |s|
    ensures |r| > 0 ==> !IsTrimChar(r[0]) && !IsTrimChar(r[|r| - 1])
  {
    TrimEnd(TrimStart(s))
  }

  /** What `trim` removes: the result is the part of `s` between a run of trim characters at
      the front and one at the back. */
  lemma TrimShape(s: string)
    ensures var r := Trim(s); var i := |s| - |TrimStart(s)|;
      && i + |r| <= |s|
      && r == s[i..i + |r|]
      && (forall k :: 0 <= k < i ==> IsTrimChar(s[k]))
      && (forall k :: i + |r| <= k < |s| ==> IsTrimChar(s[k]))
  {
    var t := TrimStart(s);
    assert t == s[|s| - |t|..];
  }

  /** Trimming is idempotent, and a string of trim characters only trims to nothing. */
  lemma TrimLaws(s: string)
    ensures Trim(Trim(s)) == Trim(s)
    ensures (forall k :: 0 <= k < |s| ==> IsTrimChar(s[k])) ==> Trim(s) == []
  {
    var r := Trim(s);
    if |r| > 0 {
      assert TrimStart(r) == r;
      assert TrimEnd(r) == r;
    }
  }

  /** `empty($x)` on a string: the empty string and `"0"` are empty. */
  predicate PhpEmpty(s: string)
  {
    s == "" || s == "0"
  }

  /** `isset($_POST[f]) ? trim($_POST[f]) : ''`. */
  function Field(posted: Option<string>): (r: string)
    ensures posted.None? ==> r == ""
    ensures posted.Some? ==> r == Trim(posted.value)
  {
    match posted
    case None => ""
    case Some(v) => Trim(v)
  }

  /** The request method and the four posted fields (`None` when the key is absent). */
  datatype Request = Request(
    requestMethod: string,
    name: Option<string>,
    email: Option<string>,
    subject: Option<string>,
    message: Option<string>)

  /** The HTTP status and the JSON body. */
  datatype Response = Response(status: int, success: bool, message: string)

  /** What is handed to `mail()` (the body and the extra headers are left out). */
  datatype Mail = Mail(to: string, subject: string, name: string, replyTo: string, text: string)

  /** The response, whether the address oracle was consulted, and the mail handed to
      `mail()`, if any. */
  datatype Outcome = Outcome(response: Response, emailChecked: bool, mailed: Option<Mail>)

  const Recipient: string := "ashishyesale007@gmail.com"
  const SubjectPrefix: string := "Portfolio Contact: "

  const MethodNotAllowed: Response := Response(405, false, "Method not allowed")
  const FieldsRequired: Response := Response(200, false, "All fields are required")
  const InvalidEmail: Response := Response(200, false, "Invalid email address")
  const Sent: Response := Response(200, true, "Message sent successfully!")
  const NotSent: Response := Response(200, false, "Failed to send message. Please try again later.")

  /** All four trimmed fields are non-empty in PHP's sense. */
  predicate FieldsPresent(req: Request)
  {
    !PhpEmpty(Field(req.name)) && !PhpEmpty(Field(req.email))
    && !PhpEmpty(Field(req.subject)) && !PhpEmpty(Field(req.message))
  }

  /** The whole script. */
  function Handle(req: Request, validEmail: string -> bool, mailer: Mail -> bool): (o: Outcome)
    ensures req.requestMethod != "POST" ==> o == Outcome(MethodNotAllowed, false, None)
    ensures req.requestMethod == "POST" && !FieldsPresent(req) ==> o == Outcome(FieldsRequired, false, None)
    ensures o.emailChecked <==> req.requestMethod == "POST" && FieldsPresent(req)
    ensures o.emailChecked && !validEmail(Field(req.email)) ==> o == Outcome(InvalidEmail, true, None)
    ensures o.mailed.Some? <==> o.emailChecked && validEmail(Field(req.email))
    ensures o.mailed.Some? ==>
      && o.mailed.value.to == Recipient
      && o.mailed.value.subject == SubjectPrefix + Field(req.subject)
      && o.mailed.value.name == Field(req.name)
      && o.mailed.value.replyTo == Field(req.email)
      && o.mailed.value.text == Field(req.message)
      && o.response == (if mailer(o.mailed.value) then Sent else NotSent)
    ensures o.response.success <==> o.mailed.Some? && mailer(o.mailed.value)
    ensures o.response.status == 405 <==> req.requestMethod != "POST"
  {
    if req.requestMethod != "POST" then Outcome(MethodNotAllowed, false, None)
    else
      var name := Field(req.name);
      var email := Field(req.email);
      var subject := Field(req.subject);
      var message := Field(req.message);
      if PhpEmpty(name) || PhpEmpty(email) || PhpEmpty(subject) || PhpEmpty(message) then
        Outcome(FieldsRequired, false, None)
      else if !validEmail(email) then
        Outcome(InvalidEmail, true, None)
      else
        var m := Mail(Recipient, SubjectPrefix + subject, name, email, message);
        Outcome(if mailer(m) then Sent else NotSent, true, Some(m))
  }

  /** The outcome depends on the posted fields only through their trimmed values. */
  lemma OnlyTrimmedFieldsMatter(a: Request, b: Request, validEmail: string -> bool, mailer: Mail -> bool)
    requires a.requestMethod == b.requestMethod
    requires Field(a.name) == Field(b.name) && Field(a.email) == Field(b.email)
    requires Field(a.subject) == Field(b.subject) && Field(a.message) == Field(b.message)
    ensures Handle(a, validEmail, mailer) == Handle(b, validEmail, mailer)
  {
  }

  /** Surrounding whitespace never reaches the checks: a field of `" 0 "` trims to `"0"`,
      which PHP's `empty` counts as empty, so the request is refused before the address
      oracle is asked. */
  lemma PaddedZeroIsEmpty()
    ensures Field(Some(" 0 ")) == "0" && PhpEmpty(Field(Some(" 0 ")))
  {
    assert " 0 " == [' '] + ("0" + [' ']);
    PadFront("0" + [' '], ' ');
    PadBack("0", ' ');
    assert Trim("0") == "0";
  }

  /** A field of whitespace only is missing. */
  lemma BlankFieldIsEmpty()
    ensures Field(Some("\t \r\n")) == ""
  {
    TrimLaws("\t \r\n");
  }

  /** A leading trim character disappears in the trim. */
  lemma PadFront(s: string, c: char)
    requires IsTrimChar(c)
    ensures Trim([c] + s) == Trim(s)
  {
    assert ([c] + s)[1..] == s;
  }

  /** A trailing trim character disappears in the trim. */
  lemma {:induction false} PadBack(s: string, c: char)
    requires IsTrimChar(c)
    ensures Trim(s + [c]) == Trim(s)
    decreases |s|
  {
    var q := s + [c];
    if |s| > 0 && IsTrimChar(s[0]) {
      assert q[1..] == s[1..] + [c];
      PadBack(s[1..], c);
    } else if |s| == 0 {
      assert TrimStart(q) == [];
    } else {
      assert TrimStart(q) == q;
      assert q[..|q| - 1] == s;
    }
  }

  /** Padding a field with spaces, tabs or newlines leaves its trimmed value alone. */
  lemma PaddingIsIgnored(s: string)
    ensures Trim(" " + s) == Trim(s) && Trim("\t" + s) == Trim(s)
    ensures Trim(s + " ") == Trim(s) && Trim(s + "\n") == Trim(s)
  {
    PadFront(s, ' ');
    PadFront(s, '\t');
    PadBack(s, ' ');
    PadBack(s, '\n');
  }
}

=== FILE: contact_message.dfy ===
/** `ContactFormHandler.showMessage` of assets/js/enhanced-animations.js: the toast shown after
    a contact-form submission. A new toast first removes the existing `.contact-message`
    element (the first one in document order, if any) and is then appended to the body; a
    timer removes it again after 4 s plus a 300 ms slide-out. Styles and the slide-in are left
    out; element identity is an explicit id. */
module ContactMessage {

  /** A `.contact-message` element: its identity, its text, and the `type` in its class. */
  datatype Message = Message(id: nat, text: string, kind: string)

  /** The `.contact-message` elements in document order, and the id the next one gets. */
  datatype Body = Body(messages: seq<Message>, nextId: nat)

  /** `remove()` of the element with this id; removing a detached element does nothing. */
  function Without(ms: seq<Message>, id: nat): (r: seq<Message>)
    ensures |r| <= |ms|
    ensures forall m :: m in r <==> m in ms && m.id != id
    ensures (forall k :: 0 <= k < |ms| ==> ms[k].id != id) ==> r == ms
  {
    if |ms| == 0 then []
    else if ms[0].id == id then Without(ms[1..], id)
    else [ms[0]] + Without(ms[1..], id)
  }

  /** `showMessage(message, type)`: the first existing toast goes, the new one is appended. */
  function ShowMessage(b: Body, text: string, kind: string): (r: Body)
    ensures |r.messages| > 0 && r.messages[|r.messages| - 1] == Message(b.nextId, text, kind)
    ensures |b.messages| > 0 ==> r.messages == b.messages[1..] + [Message(b.nextId, text, kind)]
    ensures |b.messages| <= 1 ==> r.messages == [Message(b.nextId, text, kind)]
    ensures r.nextId > b.nextId
  {
    var kept := if |b.messages| > 0 then b.messages[1..] else [];
    Body(kept + [Message(b.nextId, text, kind)], b.nextId + 1)
  }

  /** The removal timer of the toast with this id fires. */
  function Expire(b: Body, id: nat): (r: Body)
    ensures r.nextId == b.nextId
    ensures forall m :: m in r.messages <==> m in b.messages && m.id != id
  {
    b.(messages := Without(b.messages, id))
  }

  /** At most one toast is on the page, and every toast's id was handed out already. */
  ghost predicate Valid(b: Body)
  {
    |b.messages| <= 1 && forall k :: 0 <= k < |b.messages| ==> b.messages[k].id < b.nextId
  }

  datatype Event = Show(text: string, kind: string) | RemovalTimer(id: nat)

  function Step(b: Body, e: Event): (r: Body)
    ensures Valid(b) ==> Valid(r)
    ensures e.Show? && Valid(b) ==> r.messages == [Message(b.nextId, e.text, e.kind)]
  {
    match e
    case Show(text, kind) => ShowMessage(b, text, kind)
    case RemovalTimer(id) => Expire(b, id)
  }

  /** The toast's own timer removes it, and a stale timer of an earlier toast (already
      replaced) leaves the new toast in place. */
  lemma TimersRemoveOnlyTheirOwnToast(b: Body, text: string, kind: string, earlier: nat)
    requires Valid(b) && earlier < b.nextId
    ensures Expire(ShowMessage(b, text, kind), b.nextId).messages == []
    ensures Expire(ShowMessage(b, text, kind), earlier).messages == [Message(b.nextId, text, kind)]
  {
    var r := ShowMessage(b, text, kind);
    assert r.messages == [Message(b.nextId, text, kind)];
  }
}

=== FILE: cursor_trail.dfy ===
/** `CursorTrail` of assets/js/enhanced-animations.js as a bounded queue. Every mouse move
    appends a point with full life and drops the oldest point once the cap is exceeded;
    every animation frame lowers every point's life by one and discards the points whose
    life reached zero. Drawing is left out, and the random colour is a parameter. */
module CursorTrail {
  import opened Sequences

  /** `maxTrailLength`: both the length cap and the life a new point starts with. */
  const MaxTrailLength: nat := 20

  /** The number of entries in `colors`. */
  const ColorCount: nat := 4

  /** A trail point: the cursor position, the remaining life, and the index into `colors`. */
  datatype Point = Point(x: int, y: int, life: int, color: nat)

  /** What the queue keeps: at most `MaxTrailLength` points, each with a life in
      [1, MaxTrailLength] and a colour index in range. */
  ghost predicate Valid(trail: seq<Point>)
  {
    && |trail| <= MaxTrailLength
    && forall k :: 0 <= k < |trail| ==> 1 <= trail[k].life <= MaxTrailLength && trail[k].color < ColorCount
  }

  /** `addTrailPoint`: push a point with full life, then `shift` once if the trail has grown
      past the cap. `color` is `Math.floor(Math.random() * colors.length)`. */
  function AddTrailPoint(trail: seq<Point>, x: int, y: int, color: nat): (r: seq<Point>)
    requires color < ColorCount
    ensures |r| > 0 && r[|r| - 1] == Point(x, y, MaxTrailLength, color)
    ensures |trail| < MaxTrailLength ==> r[..|r| - 1] == trail
    ensures |trail| >= MaxTrailLength ==> |trail| > 0 && r[..|r| - 1] == trail[1..]
    ensures |trail| <= MaxTrailLength ==> |r| <= MaxTrailLength
    ensures Valid(trail) ==> Valid(r)
  {
    var pushed := trail + [Point(x, y, MaxTrailLength, color)];
    if |pushed| > MaxTrailLength then pushed[1..] else pushed
  }

  /** Every point with its life lowered by one, in order. */
  function Decremented(trail: seq<Point>): (r: seq<Point>)
    ensures |r| == |trail|
    ensures forall k :: 0 <= k < |trail| ==> r[k] == trail[k].(life := trail[k].life - 1)
  {
    if |trail| == 0 then [] else [trail[0].(life := trail[0].life - 1)] + Decremented(trail[1..])
  }

  /** One `animate` frame: `point.life--` on every point, then keep those with life > 0. */
  function Animate(trail: seq<Point>): (r: seq<Point>)
    ensures |r| <= |trail|
    ensures forall k :: 0 <= k < |r| ==> r[k].life > 0
    ensures forall p :: p in r <==> p in Decremented(trail) && p.life > 0
    ensures IsSubsequence(r, Decremented(trail))
    ensures (forall k :: 0 <= k < |trail| ==> trail[k].life > 1) ==> r == Decremented(trail)
  {
    if |trail| == 0 then []
    else
      var p := trail[0].(life := trail[0].life - 1);
      var rest := Animate(trail[1..]);
      assert Decremented(trail) == [p] + Decremented(trail[1..]);
      if p.life > 0 then [p] + rest else rest
  }

  /** A frame keeps every copy of a surviving point: each decremented point with life left
      occurs in the result exactly as often as in the decremented trail, and no other point
      occurs at all. With `IsSubsequence` this pins the survivors exactly. */
  lemma {:induction false} AnimateCounts(trail: seq<Point>)
    ensures forall q ::
      multiset(Animate(trail))[q] == if q.life > 0 then multiset(Decremented(trail))[q] else 0
    decreases |trail|
  {
    if |trail| > 0 {
      AnimateCounts(trail[1..]);
      var p := trail[0].(life := trail[0].life - 1);
      assert Decremented(trail) == [p] + Decremented(trail[1..]);
      assert multiset(Decremented(trail)) == multiset{p} + multiset(Decremented(trail[1..]));
    }
  }

  /** A frame keeps the queue's invariant: the survivors are decremented points of the
      trail, so their lives fall in [1, MaxTrailLength - 1]. */
  lemma AnimateKeepsValid(trail: seq<Point>)
    ensures Valid(trail) ==> Valid(Animate(trail))
  {
    var r := Animate(trail);
    if Valid(trail) {
      forall k | 0 <= k < |r|
        ensures 1 <= r[k].life <= MaxTrailLength && r[k].color < ColorCount
      {
        assert r[k] in Decremented(trail);
      }
    }
  }

  /** The two inputs: a `mousemove` with the random colour drawn for it, and a frame. */
  datatype Event = MouseMove(x: int, y: int, color: nat) | Frame

  function Step(trail: seq<Point>, e: Event): (r: seq<Point>)
    requires e.MouseMove? ==> e.color < ColorCount
    ensures Valid(trail) ==> Valid(r)
  {
    match e
    case MouseMove(x, y, color) => AddTrailPoint(trail, x, y, color)
    case Frame => AnimateKeepsValid(trail); Animate(trail)
  }

  /** `n` frames with no mouse movement. */
  function AnimateN(trail: seq<Point>, n: nat): (r: seq<Point>)
    decreases n
  {
    if n == 0 then trail else AnimateN(Animate(trail), n - 1)
  }

  /** Every point has between 1 and `n` life left. */
  predicate LivesWithin(trail: seq<Point>, n: int)
  {
    forall k :: 0 <= k < |trail| ==> 1 <= trail[k].life <= n
  }

  /** A frame lowers the highest remaining life by at least one, the survivors keep at
      least one life, and a frame over points with one life left empties the trail. */
  lemma {:induction false} AnimateLowersLives(trail: seq<Point>, n: int)
    requires LivesWithin(trail, n)
    ensures LivesWithin(Animate(trail), n - 1)
    ensures n <= 1 ==> Animate(trail) == []
    decreases |trail|
  {
    if |trail| > 0 {
      AnimateLowersLives(trail[1..], n);
    }
  }

  /** Once the mouse stops, the trail drains: if every point has between 1 and `n` life
      left, `n` frames empty it. */
  lemma {:induction false} TrailDrains(trail: seq<Point>, n: nat)
    requires n >= 1 && LivesWithin(trail, n)
    ensures AnimateN(trail, n) == []
    decreases n
  {
    AnimateLowersLives(trail, n);
    if n > 1 {
      TrailDrains(Animate(trail), n - 1);
    }
  }

  /** A valid trail is empty after `MaxTrailLength` quiet frames. */
  lemma QuietTrailEmpties(trail: seq<Point>)
    requires Valid(trail)
    ensures AnimateN(trail, MaxTrailLength) == []
  {
    TrailDrains(trail, MaxTrailLength);
  }

  /** Under steady movement the oldest point leaves first: adding to a full trail keeps the
      newest `MaxTrailLength - 1` points in their original order, so exactly one copy of the
      oldest point is lost and the new point is gained. */
  lemma OldestLeavesFirst(trail: seq<Point>, x: int, y: int, color: nat)
    requires |trail| == MaxTrailLength && color < ColorCount
    ensures AddTrailPoint(trail, x, y, color) == trail[1..] + [Point(x, y, MaxTrailLength, color)]
    ensures multiset(AddTrailPoint(trail, x, y, color))
      == multiset(trail) - multiset{trail[0]} + multiset{Point(x, y, MaxTrailLength, color)}
  {
    assert trail == [trail[0]] + trail[1..];
    assert multiset(trail) == multiset{trail[0]} + multiset(trail[1..]);
  }
}

=== FILE: enhanced_typing.dfy ===
/** `EnhancedTypingEffect` of assets/js/enhanced-animations.js: a typewriter with
    configurable speeds and an explicit waiting state. Unlike the plain typewriter, a
    completed word first enters `isWaiting`, and a separate timer turns waiting into
    deleting. Each `setTimeout` callback is an explicit `Callback` value. */
module EnhancedTyping {
  import opened Js

  /** The options object after merging. */
  datatype Options = Options(typeSpeed: int, deleteSpeed: int, delayBetweenWords: int, loop: bool, cursor: bool)

  /** The options a caller passes; `None` is a key the caller left out. */
  datatype Overrides = Overrides(
    typeSpeed: Option<int>,
    deleteSpeed: Option<int>,
    delayBetweenWords: Option<int>,
    loop: Option<bool>,
    cursor: Option<bool>)

  const Defaults: Options := Options(100, 50, 2000, true, true)

  /** The only call site passes faster speeds and a longer pause. */
  const ShippedOverrides: Overrides := Overrides(Some(80), Some(40), Some(2500), None, None)

  /** The words of the only call site. */
  const ShippedWords: seq<string> :=
    ["tech nurd", "developer", "AI enthusiast", "innovator", "problem solver", "tech enthusiast"]

  /** The pause after a word is erased is fixed, not an option. */
  const NextWordPause: int := 500

  /** The random extra added to every typing delay is below this many milliseconds. */
  const TypingJitter: int := 50

  /** `{ ...defaults, ...options }`: a supplied key wins, a missing key keeps its default. */
  function Merge(o: Overrides): (r: Options)
    ensures r.typeSpeed == (if o.typeSpeed.Some? then o.typeSpeed.value else Defaults.typeSpeed)
    ensures r.deleteSpeed == (if o.deleteSpeed.Some? then o.deleteSpeed.value else Defaults.deleteSpeed)
    ensures r.delayBetweenWords ==
      (if o.delayBetweenWords.Some? then o.delayBetweenWords.value else Defaults.delayBetweenWords)
    ensures r.loop == (if o.loop.Some? then o.loop.value else Defaults.loop)
    ensures r.cursor == (if o.cursor.Some? then o.cursor.value else Defaults.cursor)
    ensures o == Overrides(None, None, None, None, None) ==> r == Defaults
  {
    Options(
      match o.typeSpeed case Some(v) => v case None => Defaults.typeSpeed,
      match o.deleteSpeed case Some(v) => v case None => Defaults.deleteSpeed,
      match o.delayBetweenWords case Some(v) => v case None => Defaults.delayBetweenWords,
      match o.loop case Some(v) => v case None => Defaults.loop,
      match o.cursor case Some(v) => v case None => Defaults.cursor)
  }

  /** The call site's options: its three speeds win, `loop` and `cursor` keep their defaults;
      all six of its words are non-empty. */
  lemma ShippedConfiguration()
    ensures Merge(ShippedOverrides) == Options(80, 40, 2500, true, true)
    ensures |ShippedWords| == 6 && forall k :: 0 <= k < |ShippedWords| ==> |ShippedWords[k]| > 0
  {
  }

  /** `currentWordIndex`, `currentCharIndex`, `isDeleting`, `isWaiting`, and the element's
      text. */
  datatype State = State(wordIndex: int, charIndex: int, deleting: bool, waiting: bool, display: string)

  /** The three callbacks `type()` can schedule: a plain `this.type()`; the word-complete
      timer (set deleting, clear waiting, type); and the timer of the early return taken
      when `type()` runs while waiting (clear waiting, type). */
  datatype Callback = Retype | FinishWait | ResumeWait

  /** A scheduled callback with its delay; `jittered` adds `Math.random() * 50`. */
  datatype Scheduled = Scheduled(callback: Callback, delay: int, jittered: bool)

  datatype Tick = Tick(next: State, scheduled: Scheduled)

  /** One call of `type()`. */
  function Type(opts: Options, words: seq<string>, s: State): (t: Tick)
    requires 0 <= s.wordIndex < |words|
    ensures 0 <= t.next.wordIndex < |words|
    ensures s.waiting ==> t.next == s && t.scheduled == Scheduled(ResumeWait, opts.delayBetweenWords, false)
    ensures !s.waiting && !s.deleting && 0 <= s.charIndex < |words[s.wordIndex]| ==>
      && t.next == s.(charIndex := s.charIndex + 1, display := words[s.wordIndex][..s.charIndex + 1])
      && t.scheduled == Scheduled(Retype, opts.typeSpeed, true)
    ensures !s.waiting && !s.deleting && s.charIndex >= |words[s.wordIndex]| ==>
      && t.next == s.(waiting := true)
      && t.scheduled == Scheduled(FinishWait, opts.delayBetweenWords, false)
    ensures !s.waiting && s.deleting && 0 < s.charIndex <= |words[s.wordIndex]| ==>
      && t.next == s.(charIndex := s.charIndex - 1, display := words[s.wordIndex][..s.charIndex - 1])
      && t.scheduled == Scheduled(Retype, opts.deleteSpeed, false)
    ensures !s.waiting && s.deleting && s.charIndex <= 0 ==>
      && t.next == s.(deleting := false, wordIndex := (s.wordIndex + 1) % |words|)
      && t.scheduled == Scheduled(Retype, NextWordPause, false)
  {
    var word := words[s.wordIndex];
    if s.waiting then
      Tick(s, Scheduled(ResumeWait, opts.delayBetweenWords, false))
    else if !s.deleting then
      if s.charIndex < |word| then
        Tick(s.(display := Prefix(word, s.charIndex + 1), charIndex := s.charIndex + 1),
             Scheduled(Retype, opts.typeSpeed, true))
      else
        Tick(s.(waiting := true), Scheduled(FinishWait, opts.delayBetweenWords, false))
    else if s.charIndex > 0 then
      Tick(s.(display := Prefix(word, s.charIndex - 1), charIndex := s.charIndex - 1),
           Scheduled(Retype, opts.deleteSpeed, false))
    else
      Tick(s.(deleting := false, wordIndex := (s.wordIndex + 1) % |words|),
           Scheduled(Retype, NextWordPause, false))
  }

  /** A scheduled callback fires. Whatever fires, the machine is waiting afterwards exactly
      when a wait timer is what got scheduled. The word-complete timer starts deleting the
      word it completed; a resumed wait on a complete word arms the word-complete timer again;
      a plain retype during a wait changes nothing and only re-arms the wait. */
  function Fire(opts: Options, words: seq<string>, s: State, c: Callback): (t: Tick)
    requires 0 <= s.wordIndex < |words|
    ensures 0 <= t.next.wordIndex < |words|
    ensures t.next.waiting <==> t.scheduled.callback != Retype
    ensures c != Retype ==> t.scheduled.callback != ResumeWait
    ensures c == FinishWait && 0 < s.charIndex <= |words[s.wordIndex]| ==>
      && t.next.deleting && !t.next.waiting
      && t.next.wordIndex == s.wordIndex
      && t.next.charIndex == s.charIndex - 1
      && t.next.display == words[s.wordIndex][..s.charIndex - 1]
      && t.scheduled == Scheduled(Retype, opts.deleteSpeed, false)
    ensures c == FinishWait && s.charIndex <= 0 ==>
      && !t.next.deleting && !t.next.waiting
      && t.next.wordIndex == (s.wordIndex + 1) % |words|
    ensures c == ResumeWait && !s.deleting && s.charIndex >= |words[s.wordIndex]| ==>
      && t.next.waiting
      && t.scheduled == Scheduled(FinishWait, opts.delayBetweenWords, false)
    ensures c == ResumeWait && !s.deleting && 0 <= s.charIndex < |words[s.wordIndex]| ==>
      && !t.next.waiting
      && t.next.charIndex == s.charIndex + 1
    ensures c == Retype && s.waiting ==>
      t.next == s && t.scheduled == Scheduled(ResumeWait, opts.delayBetweenWords, false)
  {
    match c
    case Retype => Type(opts, words, s)
    case FinishWait => Type(opts, words, s.(deleting := true, waiting := false))
    case ResumeWait => Type(opts, words, s.(waiting := false))
  }

  /** The machine: the state and the one callback that is pending. */
  datatype Machine = Machine(s: State, pending: Callback)

  /** The constructor calls `type()` once, from the start of the first word. */
  function Start(opts: Options, words: seq<string>, display: string): (m: Machine)
    requires |words| > 0
    ensures m.s.wordIndex == 0
  {
    var t := Type(opts, words, State(0, 0, false, false, display));
    Machine(t.next, t.scheduled.callback)
  }

  /** The pending callback fires. */
  function Advance(opts: Options, words: seq<string>, m: Machine): (r: Machine)
    requires 0 <= m.s.wordIndex < |words|
    ensures 0 <= r.s.wordIndex < |words|
    ensures Valid(words, m) ==> Valid(words, r)
  {
    var t := Fire(opts, words, m.s, m.pending);
    Machine(t.next, t.scheduled.callback)
  }

  /** The reachable machines: the display is the first `charIndex` characters of the current
      word, waiting happens only on a complete word while not deleting, and the word-complete
      timer is pending exactly while waiting. */
  ghost predicate Valid(words: seq<string>, m: Machine)
  {
    var s := m.s;
    && 0 <= s.wordIndex < |words|
    && 0 <= s.charIndex <= |words[s.wordIndex]|
    && s.display == words[s.wordIndex][..s.charIndex]
    && (s.waiting ==> !s.deleting && s.charIndex == |words[s.wordIndex]|)
    && (m.pending == FinishWait <==> s.waiting)
    && m.pending != ResumeWait
  }

  /** The first call already satisfies the invariant when the first word is non-empty. */
  lemma StartIsValid(opts: Options, words: seq<string>, display: string)
    requires |words| > 0 && |words[0]| > 0
    ensures Valid(words, Start(opts, words, display))
  {
  }

  /** `n` callbacks in a row. */
  function RunN(opts: Options, words: seq<string>, m: Machine, n: nat): (r: Machine)
    requires 0 <= m.s.wordIndex < |words|
    ensures 0 <= r.s.wordIndex < |words|
    decreases n
  {
    if n == 0 then m else RunN(opts, words, Advance(opts, words, m), n - 1)
  }

  lemma {:induction false} RunNAdditive(opts: Options, words: seq<string>, m: Machine, a: nat, b: nat)
    requires 0 <= m.s.wordIndex < |words|
    ensures RunN(opts, words, m, a + b) == RunN(opts, words, RunN(opts, words, m, a), b)
    decreases a
  {
    if a > 0 {
      RunNAdditive(opts, words, Advance(opts, words, m), a - 1, b);
    }
  }

  /** Typing: one character per callback up to the full word. */
  lemma {:induction false} TypingPhase(opts: Options, words: seq<string>, i: int, c: int)
    requires 0 <= i < |words| && 0 <= c <= |words[i]|
    ensures var w := words[i];
      RunN(opts, words, Machine(State(i, c, false, false, w[..c]), Retype), |w| - c)
        == Machine(State(i, |w|, false, false, w), Retype)
    decreases |words[i]| - c
  {
    var w := words[i];
    if c < |w| {
      var m := Machine(State(i, c, false, false, w[..c]), Retype);
      assert Advance(opts, words, m) == Machine(State(i, c + 1, false, false, w[..c + 1]), Retype);
      TypingPhase(opts, words, i, c + 1);
    } else {
      assert w[..c] == w;
    }
  }

  /** Deleting: one character per callback down to zero, then one more callback moves to
      the next word (wrapping) with typing resumed. */
  lemma {:induction false} DeletingPhase(opts: Options, words: seq<string>, i: int, c: int)
    requires 0 <= i < |words| && 0 <= c <= |words[i]|
    ensures RunN(opts, words, Machine(State(i, c, true, false, words[i][..c]), Retype), c + 1)
      == Machine(State((i + 1) % |words|, 0, false, false, []), Retype)
    decreases c
  {
    var w := words[i];
    var m := Machine(State(i, c, true, false, w[..c]), Retype);
    if c > 0 {
      assert Advance(opts, words, m) == Machine(State(i, c - 1, true, false, w[..c - 1]), Retype);
      DeletingPhase(opts, words, i, c - 1);
    }
  }

  /** A full cycle: starting to type a word, after 2|w| + 2 callbacks (type, wait, delete,
      advance) the machine is starting to type the next word. Empty words are fine here. */
  lemma FullCycle(opts: Options, words: seq<string>, i: int)
    requires 0 <= i < |words|
    ensures var w := words[i];
      RunN(opts, words, Machine(State(i, 0, false, false, []), Retype), 2 * |w| + 2)
        == Machine(State((i + 1) % |words|, 0, false, false, []), Retype)
  {
    var w := words[i];
    var m0 := Machine(State(i, 0, false, false, []), Retype);
    assert w[..0] == [];
    TypingPhase(opts, words, i, 0);
    var m1 := Machine(State(i, |w|, false, false, w), Retype);
    var m2 := Machine(State(i, |w|, false, true, w), FinishWait);
    assert Advance(opts, words, m1) == m2;
    var d := Machine(State(i, |w|, true, false, w), Retype);
    assert Advance(opts, words, m2) == Advance(opts, words, d);
    assert w[..|w|] == w;
    DeletingPhase(opts, words, i, |w|);
    RunNAdditive(opts, words, m0, |w|, |w| + 2);
    RunNAdditive(opts, words, m1, 1, |w| + 1);
    assert RunN(opts, words, m2, |w| + 1) == RunN(opts, words, Advance(opts, words, m2), |w|);
    assert RunN(opts, words, d, |w| + 1) == RunN(opts, words, Advance(opts, words, d), |w|);
  }
}

=== FILE: horizontal_navigation.dfy ===
/** `HorizontalNavigation` of assets/js/main_old.js: a six-slide horizontal navigator that
    clamps its target index, ignores input while a transition is running, and never wraps.
    The 800 ms `setTimeout` that ends a transition is the explicit `TimerFired` event. */
module HorizontalNavigation {
  import opened Js

  const TotalSections: int := 6
  const SwipeThreshold: int := 50
  const TransitionMs: nat := 800

  /** What `document.querySelector('[data-section="i"]')` returns. The first element in
      document order carrying that attribute value is a property of the page markup: it may
      be the slide at some position of the `.section-slide` list, some other element (such
      as a nav link, which carries the same attribute), or nothing. */
  datatype Hit = Missing | Slide(pos: nat) | Other

  /** The page as the navigator sees it: the parsed `data-section` of every
      `.nav-link[data-section]` in document order, the number of `.section-slide`
      elements, and the markup's answer to the attribute lookup. */
  datatype Page = Page(links: seq<Num>, slideCount: nat, lookup: Num -> Hit)

  /** `currentSection`, `isAnimating`, the container's `translateX` (in vw; absent until the
      first transition), the `active` flag of every nav link, and the positions of the
      slides that carry `section-active`. */
  datatype State = State(
    current: Num,
    animating: bool,
    translate: Option<Num>,
    linkActive: seq<bool>,
    sectionActive: set<nat>)

  /** Inputs: a nav-link click (carrying the link's parsed `data-section`), a key press, a
      completed touch (start and end x), a wheel event, and the transition timer. */
  datatype Event =
    | Click(section: Num)
    | Key(key: string)
    | Swipe(startX: int, endX: int)
    | Wheel(deltaX: int, deltaY: int)
    | TimerFired

  /** The clamp the navigator is meant to apply, on plain integers. */
  function ClampIndex(i: int): (r: int)
    ensures 0 <= r < TotalSections
    ensures 0 <= i < TotalSections ==> r == i
    ensures i < 0 ==> r == 0
    ensures i >= TotalSections ==> r == TotalSections - 1
  {
    if i < 0 then 0 else if i >= TotalSections then TotalSections - 1 else i
  }

  /** `updateActiveNav`: a link is active iff its `data-section` is `===` the current index. */
  function ActiveLinks(links: seq<Num>, current: Num): (r: seq<bool>)
    ensures |r| == |links|
    ensures forall k :: 0 <= k < |links| ==> (r[k] <==> current.Int? && links[k] == current)
  {
    seq(|links|, k requires 0 <= k < |links| => StrictEq(links[k], current))
  }

  /** `triggerSectionAnimations`: mark the looked-up element, then unmark every slide whose
      position is not the target index. */
  function MarkSection(page: Page, marked: set<nat>, target: Num): (r: set<nat>)
    ensures page.lookup(target).Missing? ==> r == marked
    ensures !page.lookup(target).Missing? ==> forall k :: k in r ==> target == Int(k)
    ensures target.Int? && target.i >= 0 && page.lookup(target) == Slide(target.i) ==> target.i in r
  {
    var hit := page.lookup(target);
    if hit.Missing? then marked
    else
      var withHit := if hit.Slide? then marked + {hit.pos} else marked;
      set k | k in withHit && StrictEq(Int(k), target)
  }

  /** `goToSection`: dropped while animating; otherwise an integer target lands on
      `clamp(i, 0, 5)`, and unless that is already the current section the transition
      starts and the container translates by -100 vw per section. */
  function GoToSection(page: Page, s: State, target: Num): (r: State)
    ensures s.animating ==> r == s
    ensures Valid(page, s) && !s.animating && target.Int? ==>
      && r.current == Int(ClampIndex(target.i))
      && (r.animating <==> ClampIndex(target.i) != s.current.i)
      && (r.animating ==> r.translate == Some(Int(-100 * ClampIndex(target.i))))
      && (!r.animating ==> r == s)
      && Valid(page, r)
  {
    if s.animating then s
    else
      var t := Max(Int(0), Min(target, Int(TotalSections - 1)));
      if StrictEq(t, s.current) then s
      else
        s.(animating := true,
           current := t,
           translate := Some(Times(t, -100)),
           linkActive := ActiveLinks(page.links, t),
           sectionActive := MarkSection(page, s.sectionActive, t))
  }

  /** `handleSwipe`: a horizontal drag longer than the threshold moves one section,
      leftwards drags forward. */
  function HandleSwipe(page: Page, s: State, startX: int, endX: int): State
  {
    var diff := startX - endX;
    if Abs(diff) > SwipeThreshold then
      if diff > 0 then GoToSection(page, s, Plus(s.current, 1))
      else GoToSection(page, s, Plus(s.current, -1))
    else s
  }

  /** The keydown handler (which itself returns early while animating). */
  function HandleKey(page: Page, s: State, key: string): State
  {
    if s.animating then s
    else if key == "ArrowLeft" then GoToSection(page, s, Plus(s.current, -1))
    else if key == "ArrowRight" then GoToSection(page, s, Plus(s.current, 1))
    else if key == "Home" then GoToSection(page, s, Int(0))
    else if key == "End" then GoToSection(page, s, Int(TotalSections - 1))
    else s
  }

  /** The wheel handler: only a mostly-horizontal wheel movement navigates. */
  function HandleWheel(page: Page, s: State, dx: int, dy: int): State
  {
    if s.animating then s
    else if Abs(dx) > Abs(dy) then
      if dx > 0 then GoToSection(page, s, Plus(s.current, 1))
      else GoToSection(page, s, Plus(s.current, -1))
    else s
  }

  /** One event. While a transition runs everything but the timer is dropped, and the timer
      is the only event that lowers the flag; integer input keeps the invariant. */
  function Step(page: Page, s: State, e: Event): (r: State)
    ensures s.animating && !e.TimerFired? ==> r == s
    ensures s.animating && !r.animating ==> e.TimerFired? && r == s.(animating := false)
    ensures Valid(page, s) && Numeric(e) ==> Valid(page, r)
  {
    match e
    case Click(v) => GoToSection(page, s, v)
    case Key(k) => HandleKey(page, s, k)
    case Swipe(a, b) => HandleSwipe(page, s, a, b)
    case Wheel(dx, dy) => HandleWheel(page, s, dx, dy)
    case TimerFired => s.(animating := false)
  }

  /** The constructor: section 0, no transition, `updateActiveNav` applied once; the slides'
      `section-active` marks are whatever the markup starts with. */
  function Init(page: Page, marked: set<nat>): (r: State)
    ensures Valid(page, r) && !r.animating
  {
    State(Int(0), false, None, ActiveLinks(page.links, Int(0)), marked)
  }

  /** The navigator's invariant: the index is an in-range integer, the nav links mirror it,
      and the translation (once set) shows exactly that section. */
  ghost predicate Valid(page: Page, s: State)
  {
    && s.current.Int?
    && 0 <= s.current.i < TotalSections
    && s.linkActive == ActiveLinks(page.links, s.current)
    && (s.translate.Some? ==> s.translate.value == Int(-100 * s.current.i))
  }

  /** An event whose numbers are all integers: the click's `data-section` parsed. */
  predicate Numeric(e: Event)
  {
    e.Click? ==> e.section.Int?
  }

  /** Clamp, not wrap: ArrowLeft on the first section and ArrowRight on the last do nothing,
      and Home and End reach the ends. */
  lemma EdgesDoNotWrap(page: Page, s: State)
    requires Valid(page, s) && !s.animating
    ensures s.current == Int(0) ==> Step(page, s, Key("ArrowLeft")) == s
    ensures s.current == Int(TotalSections - 1) ==> Step(page, s, Key("ArrowRight")) == s
    ensures Step(page, s, Key("Home")).current == Int(0)
    ensures Step(page, s, Key("End")).current == Int(TotalSections - 1)
  {
  }

  /** A swipe no longer than 50 px does nothing; a longer leftward drag targets the next
      section and a longer rightward drag the previous one (both clamped). */
  lemma SwipeThresholdRule(page: Page, s: State, startX: int, endX: int)
    requires Valid(page, s) && !s.animating
    ensures Abs(startX - endX) <= SwipeThreshold ==> Step(page, s, Swipe(startX, endX)) == s
    ensures startX - endX > SwipeThreshold ==>
      Step(page, s, Swipe(startX, endX)).current == Int(ClampIndex(s.current.i + 1))
    ensures endX - startX > SwipeThreshold ==>
      Step(page, s, Swipe(startX, endX)).current == Int(ClampIndex(s.current.i - 1))
  {
  }

  /** The clamp does not catch NaN: a nav link whose `data-section` does not parse sends the
      navigator to section NaN, so no link is active and the translation is NaN. */
  lemma NonNumericClickEscapesClamp(page: Page, s: State)
    requires Valid(page, s) && !s.animating
    ensures var r := Step(page, s, Click(NaN));
      && r.current.NaN? && r.animating && r.translate == Some(NaN)
      && forall k :: 0 <= k < |r.linkActive| ==> !r.linkActive[k]
  {
  }

  /** The nav links are numbered 0..|links|-1 in document order, as in the page markup. */
  predicate LinksNumbered(links: seq<Num>)
  {
    forall k :: 0 <= k < |links| ==> links[k] == Int(k)
  }

  /** With one link per section, exactly one link is active: the current section's. */
  lemma ExactlyOneActiveLink(page: Page, s: State)
    requires Valid(page, s) && LinksNumbered(page.links) && |page.links| == TotalSections
    ensures s.linkActive[s.current.i]
    ensures forall k :: 0 <= k < |s.linkActive| && s.linkActive[k] ==> k == s.current.i
  {
  }

  /** After an accepted call whose lookup finds the target slide, that slide is the only one
      carrying `section-active`. */
  lemma AcceptedCallMarksOnlyTarget(page: Page, s: State, i: int)
    requires Valid(page, s) && !s.animating && ClampIndex(i) != s.current.i
    requires page.lookup(Int(ClampIndex(i))) == Slide(ClampIndex(i))
    ensures GoToSection(page, s, Int(i)).sectionActive == {ClampIndex(i)}
  {
    var r := GoToSection(page, s, Int(i));
    assert ClampIndex(i) in r.sectionActive;
  }
}

=== FILE: horizontal_slider.dfy ===
/** `HorizontalSlider` of assets/js/main_old_backup.js: a slide navigator with no
    animation lock that rejects out-of-range targets instead of clamping them, and wraps
    around on next/previous. */
module HorizontalSlider {
  import opened Js

  /** The page: how many `.section-slide` elements there are, and the parsed `data-section`
      of every `.nav-link` in document order (NaN for a link without the attribute). */
  datatype Page = Page(totalSlides: nat, links: seq<Num>)

  /** `currentSlide`, the wrapper's `translateX` in vw (absent until the first move), and
      the `active` class of every slide and every nav link. */
  datatype State = State(
    current: Num,
    translate: Option<Num>,
    slideActive: seq<bool>,
    linkActive: seq<bool>)

  /** Inputs: a nav-link or hero-button click with its parsed `data-section`, and a key. */
  datatype Event = Click(section: Num) | Key(key: string)

  /** `updateActiveStates`: slide k is active iff k is the current index, and a link is
      active iff its `data-section` is. */
  function UpdateActiveStates(page: Page, s: State): (r: State)
    ensures r.current == s.current && r.translate == s.translate
    ensures |r.slideActive| == page.totalSlides && |r.linkActive| == |page.links|
    ensures forall k :: 0 <= k < page.totalSlides ==> (r.slideActive[k] <==> s.current == Int(k))
    ensures forall k :: 0 <= k < |page.links| ==>
      (r.linkActive[k] <==> s.current.Int? && page.links[k] == s.current)
  {
    s.(slideActive := seq(page.totalSlides, k requires 0 <= k < page.totalSlides => StrictEq(Int(k), s.current)),
       linkActive := seq(|page.links|, k requires 0 <= k < |page.links| => StrictEq(page.links[k], s.current)))
  }

  /** `goToSlide` exactly as written: the guard `index < 0 || index >= totalSlides` is false
      for NaN, so a NaN index is accepted. */
  function GoToSlideAsWritten(page: Page, s: State, index: Num): (r: State)
    ensures Less(index, Int(0)) || AtLeast(index, Int(page.totalSlides)) ==> r == s
    ensures index.NaN? ==> r.current.NaN? && r.translate == Some(NaN)
  {
    if Less(index, Int(0)) || AtLeast(index, Int(page.totalSlides)) then s
    else UpdateActiveStates(page, s.(current := index, translate := Some(Times(index, -100))))
  }

  /** `goToSlide` as evidently intended: anything that is not an index of an existing
      slide, NaN included, leaves the state unchanged. */
  function GoToSlide(page: Page, s: State, index: Num): (r: State)
    ensures !(index.Int? && 0 <= index.i < page.totalSlides) ==> r == s
    ensures index.Int? && 0 <= index.i < page.totalSlides ==>
      && r.current == index
      && r.translate == Some(Int(-100 * index.i))
      && Valid(page, r)
    ensures index.Int? ==> r == GoToSlideAsWritten(page, s, index)
  {
    if index.Int? && 0 <= index.i < page.totalSlides then
      UpdateActiveStates(page, s.(current := index, translate := Some(Times(index, -100))))
    else s
  }

  /** On a valid state the `%` of `nextSlide` and `previousSlide` is the plain successor and
      predecessor with wrap-around. */
  lemma NeighbourIndices(page: Page, s: State)
    ensures Valid(page, s) ==>
      Rem(Plus(s.current, 1), page.totalSlides)
        == Int(if s.current.i + 1 == page.totalSlides then 0 else s.current.i + 1)
    ensures Valid(page, s) ==>
      Rem(Plus(s.current, -1 + page.totalSlides), page.totalSlides)
        == Int(if s.current.i == 0 then page.totalSlides - 1 else s.current.i - 1)
  {
    if Valid(page, s) {
      SuccMod(s.current.i, page.totalSlides);
      PredMod(s.current.i, page.totalSlides);
    }
  }

  /** `nextSlide`, which calls `goToSlide` as written: from a valid state it moves to the
      following slide, wrapping from the last to the first; with no slides `1 % 0` is NaN and
      the slider moves to NaN. */
  function NextSlide(page: Page, s: State): (r: State)
    ensures Valid(page, s) ==> Valid(page, r)
    ensures Valid(page, s) ==>
      r.current == Int(if s.current.i + 1 == page.totalSlides then 0 else s.current.i + 1)
    ensures page.totalSlides == 0 || s.current.NaN? ==> r.current.NaN?
  {
    NeighbourIndices(page, s);
    GoToSlideAsWritten(page, s, Rem(Plus(s.current, 1), page.totalSlides))
  }

  /** `previousSlide`, which calls `goToSlide` as written: from a valid state it moves to the
      preceding slide, wrapping from the first to the last. */
  function PreviousSlide(page: Page, s: State): (r: State)
    ensures Valid(page, s) ==> Valid(page, r)
    ensures Valid(page, s) ==>
      r.current == Int(if s.current.i == 0 then page.totalSlides - 1 else s.current.i - 1)
    ensures page.totalSlides == 0 || s.current.NaN? ==> r.current.NaN?
  {
    NeighbourIndices(page, s);
    GoToSlideAsWritten(page, s, Rem(Plus(s.current, -1 + page.totalSlides), page.totalSlides))
  }

  /** The event handlers as written: clicks and keys reach `goToSlide` with its written
      guard. Integer clicks keep the slider valid, but a click on a link whose `data-section`
      does not parse moves it to NaN. */
  function Step(page: Page, s: State, e: Event): (r: State)
    ensures Valid(page, s) && (e.Click? ==> e.section.Int?) ==> Valid(page, r)
    ensures e.Click? && e.section.NaN? ==> r.current.NaN? && !Valid(page, r)
  {
    match e
    case Click(v) => GoToSlideAsWritten(page, s, v)
    case Key(k) =>
      if k == "ArrowLeft" then PreviousSlide(page, s)
      else if k == "ArrowRight" then NextSlide(page, s)
      else if k == "Home" then GoToSlideAsWritten(page, s, Int(0))
      else if k == "End" then GoToSlideAsWritten(page, s, Int(page.totalSlides - 1))
      else s
  }

  /** The handlers with the corrected `goToSlide`: every event keeps the slider valid, and
      the machine differs from the written one only on a click that carries NaN. */
  function StepCorrected(page: Page, s: State, e: Event): (r: State)
    ensures Valid(page, s) ==> Valid(page, r)
    ensures !(e.Click? && e.section.NaN?) ==> r == Step(page, s, e)
    ensures e.Click? && e.section.NaN? ==> r == s
  {
    match e
    case Click(v) => GoToSlide(page, s, v)
    case Key(_) => Step(page, s, e)
  }

  /** The constructor: slide 0 with `updateActiveStates` applied once. */
  function Init(page: Page): (r: State)
    ensures page.totalSlides > 0 ==> Valid(page, r)
    ensures r.current == Int(0) && r.translate.None?
  {
    UpdateActiveStates(page, State(Int(0), None, [], []))
  }

  /** The slider's invariant: the index names an existing slide, the active marks mirror it
      and the translation (once set) shows it. */
  ghost predicate Valid(page: Page, s: State)
  {
    && s.current.Int?
    && 0 <= s.current.i < page.totalSlides
    && s == UpdateActiveStates(page, s)
    && (s.translate.Some? ==> s.translate.value == Int(-100 * s.current.i))
  }

  /** Moving to a slide twice is the same as moving there once. */
  lemma GoToSlideIdempotent(page: Page, s: State, index: Num)
    ensures GoToSlide(page, GoToSlide(page, s, index), index) == GoToSlide(page, s, index)
  {
  }

  /** `(x + 1) % n` on an index below n, without division. */
  lemma SuccMod(x: int, n: int)
    requires 0 <= x < n
    ensures (x + 1) % n == if x + 1 == n then 0 else x + 1
  {
    if x + 1 == n {
      assert (x + 1) % n == n % n;
    } else {
      assert 0 <= x + 1 < n;
    }
  }

  /** `(x - 1 + n) % n` on an index below n, without division. */
  lemma PredMod(x: int, n: int)
    requires 0 <= x < n
    ensures (x - 1 + n) % n == if x == 0 then n - 1 else x - 1
  {
    if x == 0 {
      assert 0 <= n - 1 < n;
    } else {
      assert (x - 1 + n) - n == x - 1;
      assert 0 <= x - 1 < n;
    }
  }

  /** `previousSlide` undoes `nextSlide`. */
  lemma PreviousUndoesNext(page: Page, s: State)
    requires Valid(page, s)
    ensures PreviousSlide(page, NextSlide(page, s)).current == s.current
  {
  }

  /** `k` calls of `nextSlide`. */
  function NextN(page: Page, s: State, k: nat): State
  {
    if k == 0 then s else NextSlide(page, NextN(page, s, k - 1))
  }

  /** Up to a full round, `k` calls of `nextSlide` advance the index by k, wrapping once. */
  lemma {:induction false} NextNIndex(page: Page, s: State, k: nat)
    requires Valid(page, s) && k <= page.totalSlides
    ensures Valid(page, NextN(page, s, k))
    ensures var c := s.current.i + k;
      NextN(page, s, k).current == Int(if c < page.totalSlides then c else c - page.totalSlides)
  {
    if k > 0 {
      NextNIndex(page, s, k - 1);
    }
  }

  /** `totalSlides` calls of `nextSlide` come back to the starting slide. */
  lemma NextCycles(page: Page, s: State)
    requires Valid(page, s)
    ensures NextN(page, s, page.totalSlides).current == s.current
  {
    NextNIndex(page, s, page.totalSlides);
  }

  /** The guard lets NaN through: clicking a `.nav-link` with no `data-section` attribute
      (`parseInt(null)` is NaN) moves the slider to slide NaN, so no slide and no link is
      active and the transform is `translateX(NaNvw)`. */
  lemma NaNPassesGuard(page: Page, s: State)
    ensures var r := GoToSlideAsWritten(page, s, NaN);
      && r.current.NaN?
      && (forall k :: 0 <= k < |r.slideActive| ==> !r.slideActive[k])
      && (forall k :: 0 <= k < |r.linkActive| ==> !r.linkActive[k])
  {
  }

  /** Once the index is NaN, as written, `nextSlide` computes NaN again: the arrow keys
      never recover the slider (Home and End do, see `HomeAndEndRecoverFromNaN`). */
  lemma NaNIsSticky(page: Page, s: State)
    requires s.current.NaN?
    ensures GoToSlideAsWritten(page, s, Rem(Plus(s.current, 1), page.totalSlides)).current.NaN?
  {
  }

  /** From NaN, ArrowLeft and ArrowRight keep the slider on NaN, while Home and End pass
      an integer to `goToSlide` and bring it back to a valid state on the first or last
      slide. */
  lemma HomeAndEndRecoverFromNaN(page: Page, s: State)
    requires s.current.NaN? && page.totalSlides > 0
    ensures Step(page, s, Key("ArrowLeft")).current.NaN?
    ensures Step(page, s, Key("ArrowRight")).current.NaN?
    ensures var r := Step(page, s, Key("Home")); Valid(page, r) && r.current == Int(0)
    ensures var r := Step(page, s, Key("End")); Valid(page, r) && r.current == Int(page.totalSlides - 1)
  {
  }

  /** With no slides at all, as written, `nextSlide` computes `1 % 0`, which is NaN, and the
      guard accepts it. */
  lemma NoSlidesGivesNaN(s: State)
    requires s.current == Int(0)
    ensures GoToSlideAsWritten(Page(0, []), s, Rem(Plus(s.current, 1), 0)).current.NaN?
  {
  }
}

=== FILE: js.dfy ===
/** The few JavaScript value rules the page scripts depend on: `Option`, integer-or-NaN
    numbers with their comparison and arithmetic semantics, and `String.prototype.substring`. */
module Js {

  datatype Option<+T> = None | Some(value: T)

  /** A JavaScript number as these scripts produce it: an integer (indices, pixel offsets)
      or NaN (what `parseInt` returns for a missing or non-numeric attribute, and what
      `x % 0` yields). */
  datatype Num = Int(i: int) | NaN

  /** `a === b`: NaN is equal to nothing, not even itself. */
  predicate StrictEq(a: Num, b: Num)
  {
    a.Int? && b.Int? && a.i == b.i
  }

  /** `a < b`; every comparison with NaN is false. */
  predicate Less(a: Num, b: Num)
  {
    a.Int? && b.Int? && a.i < b.i
  }

  /** `a >= b`; every comparison with NaN is false. */
  predicate AtLeast(a: Num, b: Num)
  {
    a.Int? && b.Int? && a.i >= b.i
  }

  /** `a + k`. */
  function Plus(a: Num, k: int): (r: Num)
    ensures r.NaN? <==> a.NaN?
    ensures a.Int? ==> r == Int(a.i + k)
  {
    match a
    case Int(x) => Int(x + k)
    case NaN => NaN
  }

  /** `a * k`. */
  function Times(a: Num, k: int): (r: Num)
    ensures r.NaN? <==> a.NaN?
  {
    match a
    case Int(x) => Int(x * k)
    case NaN => NaN
  }

  /** JavaScript `%`: the remainder truncates toward zero, so it takes the sign of the
      dividend, and a zero divisor yields NaN. */
  function Rem(a: Num, n: int): (r: Num)
    ensures r.NaN? <==> (a.NaN? || n == 0)
    ensures a.Int? && n != 0 && a.i >= 0 ==> r == Int(a.i % n) && 0 <= r.i < if n > 0 then n else -n
  {
    if a.NaN? || n == 0 then NaN
    else if a.i >= 0 then Int(a.i % n)
    else Int(-((-a.i) % n))
  }

  /** `Math.max(a, b)`: NaN if either argument is NaN. */
  function Max(a: Num, b: Num): (r: Num)
    ensures r.NaN? <==> (a.NaN? || b.NaN?)
    ensures r.Int? ==> r.i >= a.i && r.i >= b.i && (r.i == a.i || r.i == b.i)
  {
    if a.NaN? || b.NaN? then NaN
    else if a.i >= b.i then a else b
  }

  /** `Math.min(a, b)`: NaN if either argument is NaN. */
  function Min(a: Num, b: Num): (r: Num)
    ensures r.NaN? <==> (a.NaN? || b.NaN?)
    ensures r.Int? ==> r.i <= a.i && r.i <= b.i && (r.i == a.i || r.i == b.i)
  {
    if a.NaN? || b.NaN? then NaN
    else if a.i <= b.i then a else b
  }

  /** `Math.abs(x)` on an integer. */
  function Abs(x: int): (r: nat)
    ensures r == x || r == -x
  {
    if x < 0 then -x else x
  }

  /** `s.substring(0, end)`: the end index is clamped into [0, |s|] first, so a negative end
      gives the empty string and an end past the string gives all of it. */
  function Prefix(s: string, end: int): (r: string)
    ensures 0 <= end <= |s| ==> r == s[..end]
    ensures end < 0 ==> r == []
    ensures end > |s| ==> r == s
  {
    if end < 0 then [] else if end > |s| then s else s[..end]
  }

  /** `s.substring(1)`: everything after the first character; the empty string stays empty. */
  function DropFirst(s: string): (r: string)
    ensures |s| > 0 ==> [s[0]] + r == s
    ensures |s| == 0 ==> r == []
  {
    if |s| == 0 then [] else s[1..]
  }
}

=== FILE: mobile_menu.dfy ===
/** The hamburger menus of the vanilla scripts:
    - `MobileMenu` of assets/js/main_old_backup.js keeps an `isOpen` flag and forces both
      `active` classes to it;
    - the hamburger handler in `Navigation.setupMobileMenu` of assets/js/main.js (and
      assets/js/main_old.js) toggles the two `active` classes independently, with no flag.
    The `navbar-mobile` menu of assets/js/main_reference.js lives in `SectionNavigation`. */
module MobileMenu {

  /** `isOpen`, and the `active` class of `#hamburger` and of `#nav-menu`. */
  datatype Menu = Menu(isOpen: bool, hamburgerActive: bool, menuActive: bool)

  /** The classes agree with the flag. */
  predicate Synced(m: Menu)
  {
    m.hamburgerActive == m.isOpen && m.menuActive == m.isOpen
  }

  /** `toggle`: flips the flag and forces both classes to follow it. */
  function Toggle(m: Menu): (r: Menu)
    ensures r.isOpen == !m.isOpen
    ensures Synced(r)
  {
    Menu(!m.isOpen, !m.isOpen, !m.isOpen)
  }

  /** `close`. */
  function Close(m: Menu): (r: Menu)
    ensures !r.isOpen && Synced(r)
  {
    Menu(false, false, false)
  }

  /** A nav-link click closes the menu only when it is open. */
  function OnLinkClick(m: Menu): (r: Menu)
    ensures m.isOpen ==> r == Close(m)
    ensures !m.isOpen ==> r == m
    ensures Synced(m) ==> r == Close(m)
  {
    if m.isOpen then Close(m) else m
  }

  /** The constructor: closed, and the markup's classes untouched. */
  function Init(hamburgerActive: bool, menuActive: bool): (r: Menu)
    ensures !r.isOpen
  {
    Menu(false, hamburgerActive, menuActive)
  }

  /** Toggling twice from a synced menu changes nothing, and any toggle re-syncs a menu
      whose markup classes started out of step. */
  lemma ToggleLaws(m: Menu)
    ensures Synced(m) ==> Toggle(Toggle(m)) == m
    ensures Synced(Toggle(m))
    ensures Close(Close(m)) == Close(m)
    ensures TogglePair(TogglePair(ClassPair(m.menuActive, m.hamburgerActive))) == ClassPair(m.menuActive, m.hamburgerActive)
  {
  }

  /** The `active` classes of the hamburger and the menu in main.js. */
  datatype ClassPair = ClassPair(menuActive: bool, hamburgerActive: bool)

  /** The hamburger click: `classList.toggle('active')` on each element separately. */
  function TogglePair(p: ClassPair): (r: ClassPair)
    ensures r.menuActive == !p.menuActive && r.hamburgerActive == !p.hamburgerActive
  {
    ClassPair(!p.menuActive, !p.hamburgerActive)
  }

  /** Without a shared flag, two classes that start out of step stay out of step forever. */
  function ToggleN(p: ClassPair, n: nat): (r: ClassPair)
    ensures (r.menuActive == r.hamburgerActive) <==> (p.menuActive == p.hamburgerActive)
    ensures r.menuActive == (if n % 2 == 0 then p.menuActive else !p.menuActive)
  {
    if n == 0 then p else TogglePair(ToggleN(p, n - 1))
  }
}

=== FILE: portfolio.dfy ===
/** The `Portfolio` component of src/components/Portfolio.jsx: the category filter over the
    project list, the card's badges, and the project modal. React state is the `View`
    record; every `onClick` is an `Event`. */
module Portfolio {
  import opened Js
  import opened Sequences

  /** A project record (image, description and URLs left out). */
  datatype Project = Project(id: nat, title: string, category: string, technologies: seq<string>, featured: bool)

  /** The ids of the category buttons, in display order. */
  const Categories: seq<string> := ["all", "web", "mobile", "design", "other"]

  const Projects: seq<Project> := [
    Project(1, "E-Commerce Platform", "web", ["React", "Node.js", "MongoDB", "Stripe"], true),
    Project(2, "Task Management App", "mobile", ["React Native", "Firebase", "Redux"], false),
    Project(3, "Brand Identity Design", "design", ["Figma", "Adobe Illustrator", "Photoshop"], true),
    Project(4, "Weather Dashboard", "web", ["Vue.js", "Chart.js", "Weather API"], false),
    Project(5, "Fitness Tracker", "mobile", ["Flutter", "Dart", "SQLite"], false),
    Project(6, "Portfolio Website", "web", ["React", "Framer Motion", "Tailwind CSS"], true)]

  /** `projects.filter(project => project.category === activeFilter)`. */
  function WithCategory(projects: seq<Project>, category: string): (r: seq<Project>)
    ensures |r| <= |projects|
    ensures forall p :: p in r <==> p in projects && p.category == category
    ensures forall k :: 0 <= k < |r| ==> r[k].category == category
    ensures IsSubsequence(r, projects)
  {
    if |projects| == 0 then []
    else if projects[0].category == category then [projects[0]] + WithCategory(projects[1..], category)
    else WithCategory(projects[1..], category)
  }

  /** The filter keeps every copy of a matching project and no copy of any other, so with
      the order kept by `IsSubsequence` the result is pinned exactly. */
  lemma {:induction false} WithCategoryCounts(projects: seq<Project>, category: string)
    ensures forall q ::
      multiset(WithCategory(projects, category))[q] == if q.category == category then multiset(projects)[q] else 0
    decreases |projects|
  {
    if |projects| > 0 {
      WithCategoryCounts(projects[1..], category);
      assert projects == [projects[0]] + projects[1..];
      assert multiset(projects) == multiset{projects[0]} + multiset(projects[1..]);
    }
  }

  /** Filtering by a category twice is filtering once. */
  lemma {:induction false} WithCategoryIdempotent(projects: seq<Project>, category: string)
    ensures WithCategory(WithCategory(projects, category), category) == WithCategory(projects, category)
    decreases |projects|
  {
    if |projects| > 0 {
      WithCategoryIdempotent(projects[1..], category);
      var rest := WithCategory(projects[1..], category);
      if projects[0].category == category {
        assert ([projects[0]] + rest)[1..] == rest;
      }
    }
  }

  /** `filteredProjects`: `'all'` passes the list through untouched; any other filter keeps
      exactly the projects of that category, in their original order. */
  function FilteredProjects(activeFilter: string, projects: seq<Project>): (r: seq<Project>)
    ensures activeFilter == "all" ==> r == projects
    ensures activeFilter != "all" ==> forall p :: p in r <==> p in projects && p.category == activeFilter
    ensures activeFilter != "all" ==>
      forall q :: multiset(r)[q] == if q.category == activeFilter then multiset(projects)[q] else 0
    ensures IsSubsequence(r, projects)
  {
    if activeFilter == "all" then SubsequenceReflexive(projects); projects
    else WithCategoryCounts(projects, activeFilter); WithCategory(projects, activeFilter)
  }

  /** On the shipped data the `Other` button shows nothing, and `Web Development` shows the
      first, fourth and sixth project in that order. */
  lemma ShippedFilters()
    ensures WithCategory(Projects, "other") == []
    ensures WithCategory(Projects, "web") == [Projects[0], Projects[3], Projects[5]]
  {
  }

  /** The technology badges of a card: the names shown, and the number on the `+k` badge
      when there is one. */
  datatype Badges = Badges(shown: seq<string>, more: Option<nat>)

  /** `technologies.slice(0, 3)` followed by `+{length - 3}` when there are more than 3. */
  function TechBadges(technologies: seq<string>): (b: Badges)
    ensures |b.shown| == (if |technologies| < 3 then |technologies| else 3)
    ensures b.shown == technologies[..|b.shown|]
    ensures b.more.Some? <==> |technologies| > 3
    ensures b.more.Some? ==> |b.shown| + b.more.value == |technologies|
  {
    if |technologies| > 3 then Badges(technologies[..3], Some(|technologies| - 3))
    else Badges(technologies, None)
  }

  /** What a card renders besides its text: the `Featured` badge and the technology badges. */
  datatype CardView = CardView(featuredBadge: bool, badges: Badges)

  function RenderCard(p: Project): (c: CardView)
    ensures c.featuredBadge <==> p.featured
    ensures c.badges.more.None? ==> c.badges.shown == p.technologies
  {
    CardView(p.featured, TechBadges(p.technologies))
  }

  /** Only the first shipped project has more than three technologies, so its card alone
      shows `+1`; the featured badge is on projects 1, 3 and 6. */
  lemma ShippedBadges()
    ensures RenderCard(Projects[0]).badges == Badges(["React", "Node.js", "MongoDB"], Some(1))
    ensures forall k :: 1 <= k < |Projects| ==> RenderCard(Projects[k]).badges.more.None?
    ensures forall k :: 0 <= k < |Projects| ==> (RenderCard(Projects[k]).featuredBadge <==> Projects[k].id in {1, 3, 6})
  {
  }

  /** `activeFilter` and `selectedProject`. */
  datatype View = View(activeFilter: string, selected: Option<Project>)

  const Init: View := View("all", None)

  /** A category button, a card, a live-demo or source button on a card (which stops
      propagation, so the card's click does not fire), the modal's backdrop, a click inside
      the modal's panel (which stops propagation), and the modal's close button. */
  datatype Event =
    | CategoryClick(id: string)
    | CardClick(project: Project)
    | CardLinkClick
    | BackdropClick
    | PanelClick
    | CloseClick

  /** The modal is rendered iff a project is selected. */
  predicate ModalShown(v: View)
  {
    v.selected.Some?
  }

  function Step(v: View, e: Event): (r: View)
    ensures e.CategoryClick? ==> r == v.(activeFilter := e.id)
    ensures e.CardClick? ==> ModalShown(r) && r.selected.value == e.project && r.activeFilter == v.activeFilter
    ensures e.BackdropClick? || e.CloseClick? ==> !ModalShown(r) && r.activeFilter == v.activeFilter
    ensures e.CardLinkClick? || e.PanelClick? ==> r == v
  {
    match e
    case CategoryClick(id) => v.(activeFilter := id)
    case CardClick(p) => v.(selected := Some(p))
    case CardLinkClick => v
    case BackdropClick => v.(selected := None)
    case PanelClick => v
    case CloseClick => v.(selected := None)
  }

  /** Which category buttons carry the active gradient. */
  function ActiveButtons(v: View): (r: seq<bool>)
    ensures |r| == |Categories|
    ensures forall k :: 0 <= k < |Categories| ==> (r[k] <==> Categories[k] == v.activeFilter)
  {
    seq(|Categories|, k requires 0 <= k < |Categories| => Categories[k] == v.activeFilter)
  }

  /** Starting from `all` and clicking only the buttons on the page, exactly one button is
      active: the one last clicked. */
  lemma ExactlyOneActiveButton(v: View, k: nat)
    requires k < |Categories|
    ensures OnlyAt(ActiveButtons(Step(v, CategoryClick(Categories[k]))), k)
    ensures CountTrue(ActiveButtons(Step(v, CategoryClick(Categories[k])))) == 1
    ensures OnlyAt(ActiveButtons(Init), 0)
  {
    var r := ActiveButtons(Step(v, CategoryClick(Categories[k])));
    assert OnlyAt(r, k);
    OnlyAtCountsOne(r, k);
  }
}

=== FILE: react_navigation.dfy ===
/** The `Navigation` component of src/components/Navigation.jsx: which nav item is active,
    chosen from the sections' viewport rectangles on every scroll, and whether the mobile
    menu is open. Scrolling itself (`scrollIntoView`) and the progress bar are left out. */
module ReactNavigation {
  import opened Js
  import opened Sequences

  /** The ids of `navItems`, in order. */
  const NavIds: seq<string> := ["header", "about", "resume", "services", "portfolio", "contact"]

  /** The viewport line a section must straddle to be current. */
  const ProbeLine: int := 100

  /** `getBoundingClientRect()` of a section, in integer pixels. */
  datatype Rect = Rect(top: int, bottom: int)

  /** `isOpen` and `activeSection`. */
  datatype View = View(isOpen: bool, activeSection: string)

  const Init: View := View(false, "header")

  /** The element exists and straddles the probe line. */
  predicate Straddles(r: Option<Rect>)
  {
    r.Some? && r.value.top <= ProbeLine && r.value.bottom >= ProbeLine
  }

  /** `sections.find(...)`: the position of the first straddling section, if any. */
  function FirstStraddling(rects: seq<Option<Rect>>): (r: Option<nat>)
    ensures r.None? <==> forall k :: 0 <= k < |rects| ==> !Straddles(rects[k])
    ensures r.Some? ==>
      && r.value < |rects| && Straddles(rects[r.value])
      && forall j :: 0 <= j < r.value ==> !Straddles(rects[j])
  {
    if |rects| == 0 then None
    else if Straddles(rects[0]) then Some(0)
    else match FirstStraddling(rects[1..])
      case None => None
      case Some(k) => Some(k + 1)
  }

  /** `handleScroll`, given `document.getElementById(id)?.getBoundingClientRect()` for every
      nav item: the first straddling section becomes active; with none, nothing changes. */
  function HandleScroll(v: View, rects: seq<Option<Rect>>): (r: View)
    requires |rects| == |NavIds|
    ensures r.isOpen == v.isOpen
    ensures (forall k :: 0 <= k < |rects| ==> !Straddles(rects[k])) ==> r == v
    ensures forall k :: 0 <= k < |rects| && Straddles(rects[k]) && (forall j :: 0 <= j < k ==> !Straddles(rects[j])) ==>
      r.activeSection == NavIds[k]
  {
    match FirstStraddling(rects)
    case None => v
    case Some(k) => v.(activeSection := NavIds[k])
  }

  /** `scrollToSection(id)`: scrolls when the element exists, and closes the menu always. */
  function ScrollToSection(v: View, targetExists: bool): (r: View)
    ensures !r.isOpen && r.activeSection == v.activeSection
  {
    v.(isOpen := false)
  }

  /** The menu button: `setIsOpen(!isOpen)`. */
  function ToggleMenu(v: View): (r: View)
    ensures r.isOpen == !v.isOpen && r.activeSection == v.activeSection
  {
    v.(isOpen := !v.isOpen)
  }

  /** Two presses of the menu button restore the view, and a nav-item click right after a
      press that opened the menu closes it again without moving the active item. */
  lemma ToggleMenuLaws(v: View, targetExists: bool)
    ensures ToggleMenu(ToggleMenu(v)) == v
    ensures !v.isOpen ==> ScrollToSection(ToggleMenu(v), targetExists) == v
  {
  }

  /** Scroll events with the rectangles they observe, and clicks on a nav item (desktop or
      mobile) or the menu button. */
  datatype Event = Scroll(rects: seq<Option<Rect>>) | ItemClick(targetExists: bool) | MenuButton

  /** The active section is always one of the nav items. */
  ghost predicate Valid(v: View)
  {
    v.activeSection in NavIds
  }

  function Step(v: View, e: Event): (r: View)
    requires e.Scroll? ==> |e.rects| == |NavIds|
    ensures Valid(v) ==> Valid(r)
  {
    match e
    case Scroll(rects) => HandleScroll(v, rects)
    case ItemClick(targetExists) => ScrollToSection(v, targetExists)
    case MenuButton => ToggleMenu(v)
  }

  /** The active styling, item by item. */
  function ActiveStyling(v: View): (r: seq<bool>)
    ensures |r| == |NavIds|
    ensures forall k :: 0 <= k < |NavIds| ==> (r[k] <==> NavIds[k] == v.activeSection)
  {
    seq(|NavIds|, k requires 0 <= k < |NavIds| => NavIds[k] == v.activeSection)
  }

  /** The initial view is valid, and in every valid view exactly one item carries the
      active styling, because the item ids are distinct. */
  lemma ExactlyOneActiveItem(v: View)
    requires Valid(v)
    ensures Valid(Init)
    ensures exists k :: OnlyAt(ActiveStyling(v), k)
    ensures CountTrue(ActiveStyling(v)) == 1
  {
    var k :| 0 <= k < |NavIds| && NavIds[k] == v.activeSection;
    assert OnlyAt(ActiveStyling(v), k);
    OnlyAtCountsOne(ActiveStyling(v), k);
  }
}

=== FILE: scroll_spy.dfy ===
/** The active nav link of the vanilla pages.
    - `Navigation.setupActiveNavigation` of assets/js/main.js: on every scroll, the current
      section is the LAST `section[id]` in document order whose band
      [offsetTop - 150, offsetTop - 150 + clientHeight) contains `pageYOffset`, or `''` when
      none does; a `.nav-link` is active iff its `href` is `'#'` followed by that id.
    - `initSmoothScrolling` of assets/js/frosted-glass-animations.js: clicking a nav link
      whose target exists makes that link the only active one.
    Geometry is integer pixels. */
module ScrollSpy {
  import opened Js
  import opened Sequences

  /** The offset above a section's top at which it already counts as current. */
  const ScrollOffset: int := 150

  /** A `section[id]`: its id, `offsetTop` and `clientHeight`. */
  datatype Section = Section(id: string, offsetTop: int, height: int)

  /** The scroll position lies in the section's band. */
  predicate InBand(s: Section, y: int)
  {
    y >= s.offsetTop - ScrollOffset && y < s.offsetTop - ScrollOffset + s.height
  }

  /** The scroll handler's loop over the sections. */
  method CurrentSection(sections: seq<Section>, y: int) returns (current: string)
    ensures (forall k :: 0 <= k < |sections| ==> !InBand(sections[k], y)) ==> current == ""
    ensures (exists k :: 0 <= k < |sections| && InBand(sections[k], y)) ==>
      exists k :: 0 <= k < |sections| && InBand(sections[k], y) && current == sections[k].id
        && forall j :: k < j < |sections| ==> !InBand(sections[j], y)
  {
    current := "";
    var last := -1;
    var i := 0;
    while i < |sections|
      invariant 0 <= i <= |sections|
      invariant -1 <= last < i
      invariant last == -1 ==> current == "" && forall k :: 0 <= k < i ==> !InBand(sections[k], y)
      invariant last >= 0 ==> InBand(sections[last], y) && current == sections[last].id
      invariant forall j :: last < j < i ==> !InBand(sections[j], y)
    {
      if InBand(sections[i], y) {
        current := sections[i].id;
        last := i;
      }
      i := i + 1;
    }
  }

  /** The link pass: `link.getAttribute('href') === '#' + current`; a link without `href`
      is never active. */
  function LinkStates(hrefs: seq<Option<string>>, current: string): (r: seq<bool>)
    ensures |r| == |hrefs|
    ensures forall k :: 0 <= k < |hrefs| ==> (r[k] <==> hrefs[k] == Some("#" + current))
  {
    seq(|hrefs|, k requires 0 <= k < |hrefs| => hrefs[k] == Some("#" + current))
  }

  /** With distinct `href`s, at most one link is active, and exactly one when some link
      points at the current section. */
  lemma AtMostOneActiveLink(hrefs: seq<Option<string>>, current: string, i: nat)
    requires forall a, b :: 0 <= a < b < |hrefs| ==> hrefs[a] != hrefs[b]
    requires i < |hrefs| && hrefs[i] == Some("#" + current)
    ensures OnlyAt(LinkStates(hrefs, current), i)
    ensures CountTrue(LinkStates(hrefs, current)) == 1
  {
    OnlyAtCountsOne(LinkStates(hrefs, current), i);
  }

  /** Between sections nothing matches, the current id is `''`, and a link whose `href` is
      the bare `'#'` lights up. */
  method BareHashLightsUpBetweenSections(sections: seq<Section>, y: int, hrefs: seq<Option<string>>) returns (active: seq<bool>)
    requires forall k :: 0 <= k < |sections| ==> !InBand(sections[k], y)
    ensures |active| == |hrefs|
    ensures forall k :: 0 <= k < |hrefs| ==> (active[k] <==> hrefs[k] == Some("#"))
  {
    var current := CurrentSection(sections, y);
    assert "#" + current == "#";
    active := LinkStates(hrefs, current);
  }

  /** frosted-glass-animations.js: a click on link `clicked`; `targetExists` is whether
      `document.querySelector(href)` found an element. */
  function FrostedLinkClick(active: seq<bool>, clicked: nat, targetExists: bool): (r: seq<bool>)
    requires clicked < |active|
    ensures !targetExists ==> r == active
    ensures targetExists ==> OnlyAt(r, clicked) && CountTrue(r) == 1
  {
    if targetExists then
      var r := seq(|active|, k => k == clicked);
      OnlyAtCountsOne(r, clicked);
      r
    else active
  }
}

=== FILE: section_navigation.dfy ===
/** `SectionNavigation` of assets/js/main_reference.js: a show/hide router. One section at a
    time carries `section-show`, the header switches to its compact `header-top` style while
    a section is shown, the nav link whose `href` names the shown section is active, and the
    URL fragment is replaced (not pushed) to mirror it. */
module SectionNavigation {
  import opened Js

  /** The page: the ids of the `section` elements in document order ("" for a section
      without an id), the ids of every other element, whether `#header` and `.navbar`
      exist, and the `href` of every `.nav-link` in document order. */
  datatype Page = Page(
    sections: seq<string>,
    otherIds: set<string>,
    hasHeader: bool,
    hasNavbar: bool,
    links: seq<string>)

  /** The ids of the elements carrying `section-show`, whether the header carries
      `header-top`, the `active` flag of every nav link, the URL fragment ("" or "#id"), and
      whether the navbar carries `navbar-mobile`. */
  datatype State = State(
    shown: set<string>,
    headerTop: bool,
    linkActive: seq<bool>,
    fragment: string,
    navbarMobile: bool)

  /** Inputs: a nav-link click (with the link's `href`, None when it has none), a
      `hashchange` (with the new `location.hash`), the mobile toggle button, a click
      elsewhere in the document (whether it landed inside the navbar or the toggle), and the
      100 ms deep-link timer set at load time. */
  datatype Event =
    | LinkClick(href: Option<string>)
    | HashChange(hash: string)
    | ToggleClick
    | DocumentClick(inNavbar: bool, inToggle: bool)
    | InitialLoad(hash: string)

  /** `document.getElementById(id)` finds an element (never for the empty id). */
  predicate Exists(page: Page, id: string)
  {
    id != "" && (id in page.sections || id in page.otherIds)
  }

  /** `updateActiveNav(activeHref)`: a link is active iff its `href` equals the argument. */
  function ActiveLinks(links: seq<string>, activeHref: string): (r: seq<bool>)
    ensures |r| == |links|
    ensures forall k :: 0 <= k < |links| ==> (r[k] <==> links[k] == activeHref)
  {
    seq(|links|, k requires 0 <= k < |links| => links[k] == activeHref)
  }

  /** `showHome`: every section loses `section-show`, the header loses `header-top`, the
      `#header` link alone is active and the fragment is cleared. */
  function ShowHome(page: Page, s: State): (r: State)
    ensures forall x :: x in page.sections ==> x !in r.shown
    ensures forall x :: x in r.shown <==> x in s.shown && x !in page.sections
    ensures page.hasHeader ==> !r.headerTop
    ensures |r.linkActive| == |page.links|
    ensures forall k :: 0 <= k < |page.links| ==> (r.linkActive[k] <==> page.links[k] == "#header")
    ensures r.fragment == ""
    ensures r.navbarMobile == s.navbarMobile
  {
    State(
      s.shown - set x | x in page.sections,
      if page.hasHeader then false else s.headerTop,
      ActiveLinks(page.links, "#header"),
      "",
      s.navbarMobile)
  }

  /** `showSection(id)`: nothing happens when no element has that id; otherwise the target
      is the only section carrying `section-show`, the header gets `header-top`, the link
      `#id` alone is active and the fragment becomes `#id`. */
  function ShowSection(page: Page, s: State, id: string): (r: State)
    ensures !Exists(page, id) ==> r == s
    ensures Exists(page, id) ==>
      && id in r.shown
      && (forall x :: x in page.sections && x in r.shown ==> x == id)
      && (forall x :: x !in page.sections ==> (x in r.shown <==> x in s.shown || x == id))
      && (page.hasHeader ==> r.headerTop)
      && |r.linkActive| == |page.links|
      && (forall k :: 0 <= k < |page.links| ==> (r.linkActive[k] <==> page.links[k] == "#" + id))
      && r.fragment == "#" + id
      && r.navbarMobile == s.navbarMobile
  {
    if !Exists(page, id) then s
    else
      State(
        (s.shown - set x | x in page.sections) + {id},
        if page.hasHeader then true else s.headerTop,
        ActiveLinks(page.links, "#" + id),
        "#" + id,
        s.navbarMobile)
  }

  /** `toggleMobileMenu`. */
  function ToggleMobileMenu(page: Page, s: State): (r: State)
    ensures page.hasNavbar ==> r.navbarMobile == !s.navbarMobile
    ensures r == s.(navbarMobile := r.navbarMobile)
  {
    if page.hasNavbar then s.(navbarMobile := !s.navbarMobile) else s
  }

  /** `closeMobileMenu`. */
  function CloseMobileMenu(page: Page, s: State): (r: State)
    ensures page.hasNavbar ==> !r.navbarMobile
    ensures r == s.(navbarMobile := r.navbarMobile)
  {
    if page.hasNavbar then s.(navbarMobile := false) else s
  }

  /** The click handler of a nav link: `#header` goes home, any other `href` shows the
      section it names (after its leading `#`), and the mobile menu closes either way. A
      link without `href` throws at `.substring(1)` before anything changes. */
  function OnLinkClick(page: Page, s: State, href: Option<string>): (r: State)
    ensures href.None? ==> r == s
    ensures href.Some? && page.hasNavbar ==> !r.navbarMobile
    ensures href.Some? && !page.hasNavbar ==> r.navbarMobile == s.navbarMobile
    ensures href == Some("#header") ==>
      && r.fragment == ""
      && (page.hasHeader ==> !r.headerTop)
      && (forall x :: x in page.sections ==> x !in r.shown)
      && |r.linkActive| == |page.links|
      && (forall k :: 0 <= k < |page.links| ==> (r.linkActive[k] <==> page.links[k] == "#header"))
    ensures href.Some? && href.value != "#header" && !Exists(page, DropFirst(href.value)) ==>
      r == s.(navbarMobile := r.navbarMobile)
    ensures href.Some? && href.value != "#header" && Exists(page, DropFirst(href.value)) ==>
      var id := DropFirst(href.value);
      && r.fragment == "#" + id
      && id in r.shown
      && (forall x :: x in page.sections && x in r.shown ==> x == id)
      && (page.hasHeader ==> r.headerTop)
      && |r.linkActive| == |page.links|
      && (forall k :: 0 <= k < |page.links| ==> (r.linkActive[k] <==> page.links[k] == "#" + id))
  {
    match href
    case None => s
    case Some(h) =>
      var shownState := if h == "#header" then ShowHome(page, s) else ShowSection(page, s, DropFirst(h));
      CloseMobileMenu(page, shownState)
  }

  /** The `hashchange` handler. The browser has already put the new hash in the URL when
      the event fires. A non-empty hash that names an element is shown alone; one that names
      nothing leaves the view as it was, so only the URL changes; an empty hash goes home.
      The mobile menu is never touched. */
  function OnHashChange(page: Page, s: State, hash: string): (r: State)
    ensures r.navbarMobile == s.navbarMobile
    ensures hash == "" ==>
      && r.fragment == ""
      && (page.hasHeader ==> !r.headerTop)
      && (forall x :: x in page.sections ==> x !in r.shown)
    ensures hash != "" && !Exists(page, hash[1..]) ==> r == s.(fragment := hash)
    ensures hash != "" && Exists(page, hash[1..]) ==>
      && r.fragment == "#" + hash[1..]
      && hash[1..] in r.shown
      && (forall x :: x in page.sections && x in r.shown ==> x == hash[1..])
      && (page.hasHeader ==> r.headerTop)
    ensures hash != "" && hash[0] == '#' && Exists(page, hash[1..]) ==> r.fragment == hash
  {
    var navigated := s.(fragment := hash);
    if hash != "" then ShowSection(page, navigated, DropFirst(hash)) else ShowHome(page, navigated)
  }

  /** A `hashchange` to a fragment that names no element. */
  predicate UnknownHash(page: Page, e: Event)
  {
    e.HashChange? && e.hash != "" && !Exists(page, e.hash[1..])
  }

  /** Every event but a `hashchange` to an unknown fragment keeps the view consistent with
      the URL fragment. */
  function Step(page: Page, s: State, e: Event): (r: State)
    ensures Consistent(page, s) && !UnknownHash(page, e) ==> Consistent(page, r)
  {
    match e
    case LinkClick(href) => OnLinkClick(page, s, href)
    case HashChange(hash) => OnHashChange(page, s, hash)
    case ToggleClick => ToggleMobileMenu(page, s)
    case DocumentClick(inNavbar, inToggle) =>
      if !inNavbar && !inToggle then CloseMobileMenu(page, s) else s
    case InitialLoad(hash) =>
      if hash != "" then ShowSection(page, s, DropFirst(hash)) else s
  }

  /** The constructor: `updateActiveNav()` is called with no argument, so no link's `href`
      equals it and no link is active; nothing else is touched. The deep link is handled
      100 ms later by the `InitialLoad` event. */
  function Init(page: Page, shown: set<string>, headerTop: bool, fragment: string): (r: State)
    ensures forall k :: 0 <= k < |r.linkActive| ==> !r.linkActive[k]
    ensures |r.linkActive| == |page.links|
  {
    State(shown, headerTop, seq(|page.links|, k => false), fragment, false)
  }

  /** What every show leaves behind: either the home view with an empty fragment, or the
      view of the element the fragment names. */
  ghost predicate Consistent(page: Page, s: State)
  {
    if s.fragment == "" then
      && (forall x :: x in page.sections ==> x !in s.shown)
      && (page.hasHeader ==> !s.headerTop)
      && s.linkActive == ActiveLinks(page.links, "#header")
    else
      var id := DropFirst(s.fragment);
      && s.fragment == "#" + id
      && Exists(page, id)
      && id in s.shown
      && (forall x :: x in page.sections && x in s.shown ==> x == id)
      && (page.hasHeader ==> s.headerTop)
      && s.linkActive == ActiveLinks(page.links, s.fragment)
  }

  /** Both show functions establish the consistent view. */
  lemma ShowsAreConsistent(page: Page, s: State, id: string)
    ensures Consistent(page, ShowHome(page, s))
    ensures Exists(page, id) ==> Consistent(page, ShowSection(page, s, id))
  {
    var r := ShowSection(page, s, id);
    if Exists(page, id) {
      assert DropFirst(r.fragment) == id;
    }
  }

  /** Replaying the current fragment through `hashchange` (the browser's back/forward to
      the same entry) changes nothing: the fragment and the view agree. */
  lemma HashChangeReplaysFragment(page: Page, s: State)
    requires Consistent(page, s)
    ensures Step(page, s, HashChange(s.fragment)) == s
  {
    if s.fragment != "" {
      var id := DropFirst(s.fragment);
      var r := ShowSection(page, s, id);
      assert r.shown == s.shown;
    } else {
      assert ShowHome(page, s).shown == s.shown;
    }
  }

  /** A `hashchange` to a fragment that names nothing (typing `#nosuch` in the address bar
      while a section is shown) puts that fragment in the URL but keeps the old section
      shown, so the view no longer matches the URL. */
  lemma UnknownHashLeavesStaleView(page: Page, s: State, hash: string)
    requires Consistent(page, s) && s.fragment != ""
    requires hash != "" && !Exists(page, hash[1..])
    ensures var r := Step(page, s, HashChange(hash));
      && r.fragment == hash
      && r.shown == s.shown
      && DropFirst(s.fragment) in r.shown
      && !Consistent(page, r)
  {
    var r := Step(page, s, HashChange(hash));
    assert DropFirst(r.fragment) == hash[1..];
  }

  /** Clicking the `#header` link goes home, but a `hashchange` to `#header` shows the
      header element as a section: it gets `section-show` and `header-top`. */
  lemma HeaderLinkAndHeaderHashDiffer(page: Page, s: State)
    requires "header" in page.otherIds && page.hasHeader
    ensures !Step(page, s, LinkClick(Some("#header"))).headerTop
    ensures var r := Step(page, s, HashChange("#header"));
      r.headerTop && "header" in r.shown && r.fragment == "#header"
  {
    assert DropFirst("#header") == "header";
  }

  /** Closing the mobile menu twice is closing it once; toggling twice changes nothing. */
  lemma MobileMenuLaws(page: Page, s: State)
    ensures CloseMobileMenu(page, CloseMobileMenu(page, s)) == CloseMobileMenu(page, s)
    ensures ToggleMobileMenu(page, ToggleMobileMenu(page, s)) == s
  {
  }
}

=== FILE: sequences.dfy ===
/** Sequence vocabulary shared by the filters, the trail and the active-link rules. */
module Sequences {

  /** `a` is `b` with some elements left out and the rest kept in their original order. */
  predicate IsSubsequence<T(==)>(a: seq<T>, b: seq<T>)
    decreases |b|
  {
    |a| == 0 || (|b| > 0 && ((a[0] == b[0] && IsSubsequence(a[1..], b[1..])) || IsSubsequence(a, b[1..])))
  }

  /** Every sequence is a subsequence of itself. */
  lemma {:induction false} SubsequenceReflexive<T>(a: seq<T>)
    ensures IsSubsequence(a, a)
    decreases |a|
  {
    if |a| > 0 {
      SubsequenceReflexive(a[1..]);
    }
  }

  /** How many entries are true. */
  function CountTrue(s: seq<bool>): (n: nat)
    ensures n <= |s|
  {
    if |s| == 0 then 0 else (if s[0] then 1 else 0) + CountTrue(s[1..])
  }

  /** Exactly the entry at `i` is true. */
  predicate OnlyAt(s: seq<bool>, i: int)
  {
    0 <= i < |s| && s[i] && forall k :: 0 <= k < |s| && k != i ==> !s[k]
  }

  /** A sequence with no true entry counts zero. */
  lemma {:induction false} NoneTrueCountsZero(s: seq<bool>)
    requires forall k :: 0 <= k < |s| ==> !s[k]
    ensures CountTrue(s) == 0
    decreases |s|
  {
    if |s| > 0 {
      NoneTrueCountsZero(s[1..]);
    }
  }

  /** A sequence true at exactly one position counts exactly one. */
  lemma {:induction false} OnlyAtCountsOne(s: seq<bool>, i: int)
    requires OnlyAt(s, i)
    ensures CountTrue(s) == 1
    decreases |s|
  {
    if i == 0 {
      NoneTrueCountsZero(s[1..]);
    } else {
      OnlyAtCountsOne(s[1..], i - 1);
    }
  }
}

=== FILE: theme.dfy ===
/** The dark/light theme toggles. All variants share the rule "dark becomes light, anything
    else becomes dark" and start from the stored preference or `'dark'`, but they render
    the theme differently:
    - `ThemeToggle` of assets/js/main.js (and the same class in assets/js/main_old.js, which
      only adds cosmetic rotation and transition styles) sets the `light-theme` body class
      and the button icon at once;
    - `ThemeToggle` of assets/js/main_old_backup.js sets the class at once but swaps the
      icon 150 ms later, from a timer;
    - `ThemeManager` of assets/js/main_reference.js writes a `data-theme` attribute. */
module Theme {
  import opened Js

  datatype Icon = Sun | Moon

  /** The icon every variant shows for a theme: a moon on the light theme, a sun otherwise. */
  function IconFor(theme: string): (r: Icon)
    ensures r == Moon <==> theme == "light"
  {
    if theme == "light" then Moon else Sun
  }

  /** `localStorage.getItem('theme') || 'dark'`: a missing or empty stored value gives the
      dark theme, any other stored string is used as it is. */
  function InitialTheme(stored: Option<string>): (r: string)
    ensures r != ""
    ensures stored.Some? && stored.value != "" ==> r == stored.value
    ensures stored.None? || stored.value == "" ==> r == "dark"
  {
    if stored.Some? && stored.value != "" then stored.value else "dark"
  }

  /** `currentTheme === 'dark' ? 'light' : 'dark'`. */
  function Toggled(theme: string): (r: string)
    ensures r == "dark" || r == "light"
    ensures r == "light" <==> theme == "dark"
  {
    if theme == "dark" then "light" else "dark"
  }

  /** Toggling twice restores a dark or light theme, and any other stored theme is
      normalised to dark by its first toggle. */
  lemma ToggleTwice(theme: string)
    ensures theme == "dark" || theme == "light" ==> Toggled(Toggled(theme)) == theme
    ensures theme != "dark" ==> Toggled(theme) == "dark"
  {
  }

  // ----- main.js / main_old.js -----

  /** The theme, whether the body carries `light-theme`, and the button's icon (None when
      there is no `#theme-btn`). */
  datatype ClassTheme = ClassTheme(current: string, lightClass: bool, icon: Option<Icon>)

  /** `setTheme`: the class is present iff the theme is `light`, and the icon follows. */
  function SetClassTheme(s: ClassTheme, hasButton: bool, theme: string): (r: ClassTheme)
    ensures r.current == theme
    ensures r.lightClass <==> theme == "light"
    ensures hasButton ==> r.icon == Some(IconFor(theme))
    ensures !hasButton ==> r.icon == s.icon
  {
    if theme == "light" then
      ClassTheme(theme, true, if hasButton then Some(Moon) else s.icon)
    else
      ClassTheme(theme, false, if hasButton then Some(Sun) else s.icon)
  }

  /** `toggleTheme`. */
  function ToggleClassTheme(s: ClassTheme, hasButton: bool): (r: ClassTheme)
    ensures r.current == "dark" || r.current == "light"
    ensures r.current == "light" <==> s.current == "dark"
    ensures r.lightClass <==> r.current == "light"
    ensures hasButton ==> r.icon == Some(IconFor(r.current))
    ensures !hasButton ==> r.icon == s.icon
  {
    SetClassTheme(s, hasButton, Toggled(s.current))
  }

  /** The constructor applies the stored (or default) theme. */
  function InitClassTheme(stored: Option<string>, hasButton: bool, markupIcon: Option<Icon>): (r: ClassTheme)
    ensures r.current == InitialTheme(stored)
    ensures r.lightClass <==> stored == Some("light")
    ensures hasButton ==> r.icon == Some(IconFor(r.current))
    ensures !hasButton ==> r.icon == markupIcon
  {
    SetClassTheme(ClassTheme("", false, markupIcon), hasButton, InitialTheme(stored))
  }

  /** Two toggles from dark or light give back the same rendered state. */
  lemma ClassThemeToggleTwice(s: ClassTheme, hasButton: bool)
    requires s.current == "dark" || s.current == "light"
    requires s.lightClass <==> s.current == "light"
    requires hasButton ==> s.icon == Some(IconFor(s.current))
    ensures ToggleClassTheme(ToggleClassTheme(s, hasButton), hasButton) == s
  {
  }

  // ----- main_old_backup.js -----

  /** The theme, the body class, the icon currently shown, and the icons that pending
      150 ms timers will still put on the button, oldest first. */
  datatype DeferredTheme = DeferredTheme(current: string, lightClass: bool, icon: Icon, pending: seq<Icon>)

  const IconDelayMs: nat := 150

  /** `setTheme`: `classList.toggle('light-theme', theme === 'light')` now, the icon later. */
  function SetDeferredTheme(s: DeferredTheme, theme: string): (r: DeferredTheme)
    ensures r.current == theme
    ensures r.lightClass <==> theme == "light"
    ensures r.icon == s.icon
    ensures r.pending == s.pending + [IconFor(theme)]
  {
    DeferredTheme(theme, theme == "light", s.icon, s.pending + [IconFor(theme)])
  }

  /** `toggleTheme`: the class follows the new theme at once, and its icon is queued behind
      any still pending. */
  function ToggleDeferredTheme(s: DeferredTheme): (r: DeferredTheme)
    ensures r.current == "dark" || r.current == "light"
    ensures r.current == "light" <==> s.current == "dark"
    ensures r.lightClass <==> r.current == "light"
    ensures r.icon == s.icon && r.pending == s.pending + [IconFor(r.current)]
  {
    SetDeferredTheme(s, Toggled(s.current))
  }

  /** The oldest pending icon timer fires (timers of equal delay fire in the order they were
      set). With no timer pending nothing happens. */
  function IconTimerFired(s: DeferredTheme): (r: DeferredTheme)
    ensures |s.pending| > 0 ==> r.icon == s.pending[0] && r.pending == s.pending[1..]
    ensures |s.pending| == 0 ==> r == s
    ensures r.current == s.current && r.lightClass == s.lightClass
  {
    if |s.pending| > 0 then s.(icon := s.pending[0], pending := s.pending[1..]) else s
  }

  /** The icon the button will show once every pending timer has fired is the one for the
      current theme. */
  ghost predicate Settles(s: DeferredTheme)
  {
    && (s.lightClass <==> s.current == "light")
    && (if |s.pending| == 0 then s.icon == IconFor(s.current)
        else s.pending[|s.pending| - 1] == IconFor(s.current))
  }

  /** Fire every pending icon timer. */
  function FireAll(s: DeferredTheme): (r: DeferredTheme)
    requires Settles(s)
    ensures r.pending == [] && r.current == s.current
    ensures r.icon == IconFor(r.current)
    ensures r.lightClass <==> r.current == "light"
    decreases |s.pending|
  {
    if |s.pending| == 0 then s else FireAll(IconTimerFired(s))
  }

  /** Every operation keeps the eventual icon in step with the theme. */
  lemma DeferredThemeSettles(s: DeferredTheme, theme: string)
    requires Settles(s)
    ensures Settles(SetDeferredTheme(s, theme))
    ensures Settles(ToggleDeferredTheme(s))
    ensures Settles(IconTimerFired(s))
  {
  }

  /** The icon can lag the theme: right after a toggle the old icon is still shown. */
  lemma IconLagsToggle(s: DeferredTheme)
    requires s.current == "dark" && s.icon == Sun && s.pending == []
    ensures var r := ToggleDeferredTheme(s); r.current == "light" && r.icon == Sun
    ensures IconTimerFired(ToggleDeferredTheme(s)).icon == Moon
  {
  }

  // ----- main_reference.js -----

  /** The theme, the body's `data-theme` attribute, and the icon (None without a button). */
  datatype AttributeTheme = AttributeTheme(current: string, dataTheme: string, icon: Option<Icon>)

  /** `ThemeManager.setTheme`. */
  function SetAttributeTheme(s: AttributeTheme, hasButton: bool, theme: string): (r: AttributeTheme)
    ensures r.current == theme && r.dataTheme == theme
    ensures hasButton ==> r.icon == Some(IconFor(theme))
    ensures !hasButton ==> r.icon == s.icon
  {
    AttributeTheme(theme, theme, if hasButton then Some(IconFor(theme)) else s.icon)
  }

  /** `ThemeManager.toggleTheme`: the result is always dark or light. */
  function ToggleAttributeTheme(s: AttributeTheme, hasButton: bool): (r: AttributeTheme)
    ensures r.current == "dark" || r.current == "light"
    ensures r.current == "light" <==> s.current == "dark"
    ensures r.dataTheme == r.current
    ensures hasButton ==> r.icon == Some(IconFor(r.current))
    ensures !hasButton ==> r.icon == s.icon
  {
    SetAttributeTheme(s, hasButton, Toggled(s.current))
  }
}

=== FILE: typewriter.dfy ===
/** The typewriter loop shared, line for line, by `TypingEffect.type` in assets/js/main.js and
    assets/js/main_old.js and by `typeWriter` in assets/js/frosted-glass-animations.js; they
    differ only in their word lists. Each call shows one more (or one fewer) character of the
    current text and reschedules itself after a delay: 100 ms while typing, 50 ms while
    deleting, 2000 ms once a text is complete, 500 ms once it is erased. */
module Typewriter {
  import opened Js

  const TypeDelay: nat := 100
  const DeleteDelay: nat := 50
  const FullTextPause: nat := 2000
  const NextTextPause: nat := 500

  /** The texts of main.js and main_old.js. */
  const MainTexts: seq<string> := [
    "Full-Stack Web Developer & Graphic Designer",
    "AI/ML Enthusiast & Google Developer",
    "Creative Problem Solver & Innovator",
    "Open Source Contributor & Tech Leader"]

  /** The words of frosted-glass-animations.js. */
  const FrostedWords: seq<string> := ["tech nurd", "tech enthusiast", "developer", "innovator", "creator"]

  /** `currentTextIndex`, `currentCharIndex`, `isDeleting`, and the element's `textContent`. */
  datatype Typer = Typer(index: int, charIndex: int, deleting: bool, display: string)

  /** The state after one call and the delay it passes to `setTimeout`. */
  datatype Tick = Tick(next: Typer, delay: nat)

  predicate AllNonEmpty(texts: seq<string>)
  {
    forall k :: 0 <= k < |texts| ==> |texts[k]| > 0
  }

  /** The loop's invariant: the index names a text, the display is exactly the first
      `charIndex` characters of it, and the phase bounds the char index (typing stops before
      the end, deleting stops before zero). */
  ghost predicate Valid(texts: seq<string>, s: Typer)
  {
    && 0 <= s.index < |texts|
    && 0 <= s.charIndex <= |texts[s.index]|
    && s.display == texts[s.index][..s.charIndex]
    && (s.deleting ==> s.charIndex >= 1)
    && (!s.deleting ==> s.charIndex < |texts[s.index]|)
  }

  /** One call of `type()`. */
  function Type(texts: seq<string>, s: Typer): (t: Tick)
    requires 0 <= s.index < |texts|
    ensures 0 <= t.next.index < |texts|
    ensures !s.deleting && t.next.deleting ==> t.delay == FullTextPause && t.next.index == s.index
    ensures s.deleting && !t.next.deleting ==>
      t.delay == NextTextPause && t.next.index == (s.index + 1) % |texts| && t.next.display == []
    ensures s.deleting == t.next.deleting ==>
      t.delay == (if s.deleting then DeleteDelay else TypeDelay) && t.next.index == s.index
    ensures AllNonEmpty(texts) && Valid(texts, s) ==> Valid(texts, t.next)
    ensures Valid(texts, s) && !s.deleting ==>
      t.next.charIndex == s.charIndex + 1 && t.next.display == texts[s.index][..s.charIndex + 1]
    ensures Valid(texts, s) && s.deleting ==>
      t.next.charIndex == s.charIndex - 1 && t.next.display == texts[s.index][..s.charIndex - 1]
  {
    var text := texts[s.index];
    var shown := if s.deleting then Prefix(text, s.charIndex - 1) else Prefix(text, s.charIndex + 1);
    var ci := if s.deleting then s.charIndex - 1 else s.charIndex + 1;
    if !s.deleting && ci == |text| then
      Tick(Typer(s.index, ci, true, shown), FullTextPause)
    else if s.deleting && ci == 0 then
      Tick(Typer((s.index + 1) % |texts|, ci, false, shown), NextTextPause)
    else
      Tick(Typer(s.index, ci, s.deleting, shown), if s.deleting then DeleteDelay else TypeDelay)
  }

  /** The constructor's state; `display` is whatever the element held in the markup. */
  function Init(display: string): Typer
  {
    Typer(0, 0, false, display)
  }

  /** The first call overwrites the markup's text, so the invariant holds from then on. */
  lemma FirstCallEstablishesValid(texts: seq<string>, display: string)
    requires |texts| > 0 && AllNonEmpty(texts)
    ensures Valid(texts, Type(texts, Init(display)).next)
    ensures Type(texts, Init(display)).next.display == texts[0][..1]
  {
  }

  /** `n` successive calls. */
  function Run(texts: seq<string>, s: Typer, n: nat): (r: Typer)
    requires 0 <= s.index < |texts|
    ensures 0 <= r.index < |texts|
    decreases n
  {
    if n == 0 then s else Run(texts, Type(texts, s).next, n - 1)
  }

  /** The typing phase: from any valid typing state, the rest of the text is typed one
      character per call and then the loop turns to deleting with the full text shown. */
  lemma {:induction false} TypingPhase(texts: seq<string>, s: Typer)
    requires AllNonEmpty(texts) && Valid(texts, s) && !s.deleting
    ensures var t := texts[s.index];
      Run(texts, s, |t| - s.charIndex) == Typer(s.index, |t|, true, t)
    decreases |texts[s.index]| - s.charIndex
  {
    var t := texts[s.index];
    var next := Type(texts, s).next;
    if s.charIndex + 1 == |t| {
      assert next == Typer(s.index, |t|, true, t);
    } else {
      TypingPhase(texts, next);
    }
  }

  /** The deleting phase: from any valid deleting state, the text is erased one character
      per call and then the loop moves on to the next text, typing from an empty display. */
  lemma {:induction false} DeletingPhase(texts: seq<string>, s: Typer)
    requires AllNonEmpty(texts) && Valid(texts, s) && s.deleting
    ensures Run(texts, s, s.charIndex) == Typer((s.index + 1) % |texts|, 0, false, [])
    decreases s.charIndex
  {
    var next := Type(texts, s).next;
    if s.charIndex > 1 {
      DeletingPhase(texts, next);
    }
  }

  lemma {:induction false} RunAdditive(texts: seq<string>, s: Typer, m: nat, n: nat)
    requires 0 <= s.index < |texts|
    ensures Run(texts, s, m + n) == Run(texts, Run(texts, s, m), n)
    decreases m
  {
    if m > 0 {
      RunAdditive(texts, Type(texts, s).next, m - 1, n);
    }
  }

  /** A full cycle: from the start of a text, twice its length in calls types it, erases it,
      and arrives at the start of the next text (wrapping after the last). */
  lemma FullCycle(texts: seq<string>, i: int)
    requires AllNonEmpty(texts) && 0 <= i < |texts|
    ensures var t := texts[i];
      Run(texts, Typer(i, 0, false, []), 2 * |t|) == Typer((i + 1) % |texts|, 0, false, [])
  {
    var t := texts[i];
    var s := Typer(i, 0, false, []);
    TypingPhase(texts, s);
    RunAdditive(texts, s, |t|, |t|);
    DeletingPhase(texts, Typer(i, |t|, true, t));
  }

  /** Why the texts must be non-empty: on an empty text the typing phase never ends; the
      char index grows by one per call, the display stays empty, and the loop never turns
      to deleting or to the next text. */
  lemma {:induction false} EmptyTextTypesForever(texts: seq<string>, s: Typer, n: nat)
    requires 0 <= s.index < |texts| && texts[s.index] == []
    requires !s.deleting && s.charIndex >= 0 && s.display == []
    ensures Run(texts, s, n) == Typer(s.index, s.charIndex + n, false, [])
    decreases n
  {
    if n > 0 {
      var next := Type(texts, s).next;
      assert next == Typer(s.index, s.charIndex + 1, false, []);
      EmptyTextTypesForever(texts, next, n - 1);
    }
  }

  /** The shipped word lists satisfy the loop's precondition; the frosted-glass list has
      five words, so its index stays in [0, 5). */
  lemma ShippedListsAreNonEmpty()
    ensures |MainTexts| == 4 && AllNonEmpty(MainTexts)
    ensures |FrostedWords| == 5 && AllNonEmpty(FrostedWords)
  {
  }
}
